=== FILE: README.md ===
# youtubeplanner core in Dafny

This project models the pure logic of youtubeplanner. The app searches YouTube for
a topic, turns each video's ISO 8601 duration into minutes, packs the videos into a
day-by-day viewing plan from a weekly availability, and reports the five most
frequent keywords of the results. The model covers three functions:

- `calculateSchedule` (module `Scheduler`, `scheduler.dfy`). Videos longer than the
  largest daily budget are dropped. The rest are packed next-fit, in input order,
  into days of a seven-day budget pattern. The loop is a step function over a
  cursor `(day, remaining, dayVideos, emitted)`:
  - `Wrap` is the week wrap-around check;
  - `Accept` places the video in the current day;
  - `Advance` closes the day and moves on;
  - `Pass` is one run of the `while (true)` body;
  - `Place` is that loop, with the termination measure `PassesLeft`;
  - `PlaceAll` is the `for` loop.

  The rule that reads a day's budget is a parameter. `ZeroFallsBack` is the code as
  written, where a 0 budget reads as day 0's. `ZeroMeansRest` is the corrected rule
  (see "## Findings"). Every general lemma is stated for both rules.
- `findTopKeywords` (module `Keywords`, `keywords.dfy`). The steps are: lower-case,
  split on whitespace runs, strip to `[a-z0-9]`, filter, count in an
  insertion-ordered map, stable sort by descending count, keep the first five. The
  map is a sequence of `KeywordCount` entries kept in first-seen order. The sort is
  a stable insertion sort.
- `parseDuration` (module `Duration`, `duration.dfy`). It matches
  `/PT(\d+H)?(\d+M)?(\d+S)?/` at the first `PT` of the text. It adds 60 minutes per
  hour and one per minute, and rounds the seconds up to whole minutes. `Render`
  writes the time part of a duration (section 4.4.3.2 of ISO 8601) as the video API
  sends it. It is the partner that the parser is proved to invert.

`Videos` (the video record), `Ascii` (digit classes) and `Seqs` (a fact about splitting
a sequence) are shared support modules.

The weekly availability is 7 integers. The browser form guarantees that much: it
reads each field as `parseInt(...) || 0`, so an empty or non-numeric field becomes
0. It does not rule out a negative entry such as `-5`, on which the loop as written
never ends (see "## Findings"). `CalculateSchedule` assumes non-negative entries
(`ValidWeek`); `ScheduleAnyWeek` takes any seven entries and reads a negative one
as 0. The
model reads the entries in minutes, the unit of the video durations they are
compared with, although the doc comment of `calculateSchedule` calls them hours
available per day.

## Model

| member | source | states |
|---|---|---|
| Scheduler.ArgMax | public/js/scheduler.js:24 | the chosen index is in range and holds a largest budget, so `MaxDaily` is `Math.max` of the week |
| Scheduler.MaxDaily | public/js/scheduler.js:24 | no entry of the week exceeds the maximum; `MaxDailyAttained` adds that it is one of the entries |
| Scheduler.MaxDailyAttained | public/js/scheduler.js:24 | `Math.max` of the week is one of its entries |
| Scheduler.Start | public/js/scheduler.js:19-22 | the loop starts on day 0 with day 0's entry as the time left, with nothing placed and nothing to flush |
| Scheduler.Flush | public/js/scheduler.js:46-51 | pushing the current day (here, and likewise at lines 30-35 and 59-64) keeps the entries already emitted as a prefix, and the entries then hold exactly the videos placed so far, in order |
| Scheduler.ValidVideos | public/js/scheduler.js:25 | every kept video fits the largest budget; a video is kept iff it is in the input and not longer than the maximum; kept plus unwatchable is the input size; multiplicity and order are stated by `ValidVideosCounts` and `ValidVideosOrder` |
| Scheduler.ValidVideosCounts | public/js/scheduler.js:25 | the filter keeps each video that fits exactly as many times as the input holds it, and no copy of a video that does not fit |
| Scheduler.ValidVideosOrder | public/js/scheduler.js:25 | the kept videos are a subsequence of the input: they appear in input order |
| Scheduler.Budget | public/js/scheduler.js:54 | on a valid week, a day's budget is never negative; a weekday with a non-zero entry gets that entry; under the corrected rule every weekday gets its own entry; as written, a weekday with a 0 entry and the index 7 past the week both get day 0's entry |
| Scheduler.Wrap | public/js/scheduler.js:29-39 | at day 7 or later the cursor restarts on day 0 with day 0's budget and an empty day; before day 7 it is unchanged |
| Scheduler.Accept | public/js/scheduler.js:41-44 | placing a video keeps the day and the emitted entries, adds its duration to the day's total and takes it from the remaining time, so total plus remaining is unchanged |
| Scheduler.Advance | public/js/scheduler.js:45-55 | the next day starts empty with that day's budget, and the emitted entries only grow |
| Scheduler.Pass | public/js/scheduler.js:28-56 | a run of the loop body places the video iff it fits the time remaining after the wrap check; its invariant is kept as `PassKeepsInvariant` states |
| Scheduler.PlaceAll | public/js/scheduler.js:27-57 | the outer loop never removes emitted entries and, after at least one video, ends on a weekday 0..6; `PlaceAllKeepsInvariant` and `LoopInvariant` state what it places |
| Scheduler.ScheduleWith | public/js/scheduler.js:18-71 | for either budget rule, `unwatchableVideos` counts the inputs over the maximum, `totalDays` is the entry count and `totalWeeks` is its ceiling over 7 |
| Scheduler.CalculateSchedule | public/js/scheduler.js:18-72 | the entries hold exactly the valid videos in input order, each entry fits its budget, the entries are next-fit, each entry sits on the day the loop picks for it (`Landed`: the first entry on the first day from day 0 whose budget has room for its first video, each later entry on the first such day after its predecessor's day, read around the week), and the counts are as in `ScheduleWith`, plus unwatchable and placed videos adding up to the input size |
| Scheduler.WeeksFor | public/js/scheduler.js:69 | the week count is the least `w` with `7*w >= days` (`Math.ceil(days / 7)`) |
| Scheduler.PeakBudget | public/js/scheduler.js:22-54 | the day with the largest budget gets exactly that budget under either rule, including a 0 budget falling back to day 0 |
| Scheduler.PassesLeftDecreases | public/js/scheduler.js:28-56 | a run of the loop body that does not place a valid video strictly lowers the distance to the peak day, so the `while (true)` loop terminates |
| Scheduler.Place | public/js/scheduler.js:28-56 | the inner loop ends on a weekday 0..6 with the video last in the current day, and never removes emitted entries; `PlaceLands` states which day it ends on |
| Scheduler.PlaceWithinEightPasses | public/js/scheduler.js:27-56 | a valid video is placed after between 1 and 8 runs of the loop body |
| Scheduler.FirstRoomyDay | public/js/scheduler.js:28-55 | the day search that the inner loop performs from day `d` (day 7 read as day 0), as an independent definition: the day found is a weekday whose budget has room for the video |
| Scheduler.FirstRoomyDayIsFirst | public/js/scheduler.js:28-55 | every weekday the search passes over, going round the week from `d` to the day it finds, lacks room for the video |
| Scheduler.PlaceLands | public/js/scheduler.js:28-56 | from a weekday cursor, the video joins the current day when it fits the time left; otherwise the current day is pushed and the video goes alone, with that day's budget less its duration left, on `FirstRoomyDay` from the next day |
| Scheduler.PlaceOnFreshDay | public/js/scheduler.js:45-55 | a video too long for the time left opens a new day on `FirstRoomyDay` from the next day, after the current day is pushed |
| Scheduler.FreshPlace | public/js/scheduler.js:29-55 | from the start of a day with nothing on it (day 7 included), the inner loop puts the video alone on `FirstRoomyDay` from that day, pushing nothing |
| Scheduler.PlaceStepLands | public/js/scheduler.js:28-56 | placing one more video keeps every entry of the flushed schedule on the day the loop picks for it |
| Scheduler.PlaceAllLands | public/js/scheduler.js:27-57 | the outer loop keeps every entry of the flushed schedule on the day the loop picks for it |
| Scheduler.FirstPlaceLands | public/js/scheduler.js:19-56 | the first valid video goes alone on `FirstRoomyDay` from day 0 |
| Scheduler.ScheduleLands | public/js/scheduler.js:18-64 | for either budget rule, every entry of the schedule sits on the day the loop picks for it (`Landed`) |
| Scheduler.WrapFlushIsDead | public/js/scheduler.js:29-53 | when the day counter reaches 7 the current day is already empty, so the wrap check pushes nothing and resets the day to 0 |
| Scheduler.AcceptKeeps | public/js/scheduler.js:41-44 | placing a fitting video keeps the loop invariant: budget accounting, fitting entries, next-fit chain, and order of placed videos |
| Scheduler.AdvanceKeeps | public/js/scheduler.js:45-55 | closing a day and moving to the next budget keeps the loop invariant, with the closed day closed by the waiting video |
| Scheduler.AdvanceHolds | public/js/scheduler.js:52-54 | after the flush the next day starts with its full budget and nothing in it, and the emitted entries still hold every placed video |
| Scheduler.AdvanceCloses | public/js/scheduler.js:45-51 | the entry a day advance pushes, if any, is closed by the video that did not fit |
| Scheduler.FlushKeeps | public/js/scheduler.js:46-64 | pushing a non-empty day keeps every entry within its budget and the next-fit chain intact, and the entries then hold exactly the placed videos |
| Scheduler.PassKeepsInvariant | public/js/scheduler.js:28-56 | each run of the loop body keeps the inner-loop invariant, and a placing run reaches the outer-loop invariant |
| Scheduler.PlaceKeepsInvariant | public/js/scheduler.js:28-56 | the inner loop takes the outer invariant for the placed prefix to the outer invariant for that prefix plus the video |
| Scheduler.PlaceAllKeepsInvariant | public/js/scheduler.js:27-57 | the outer loop keeps the invariant over all valid videos |
| Scheduler.LoopInvariant | public/js/scheduler.js:19-57 | starting from day 0 with day 0's budget, after the outer loop the cursor sits on a weekday with every valid video placed in order and the invariant intact |
| Scheduler.ScheduleInvariant | public/js/scheduler.js:18-64 | after the final flush every entry is non-empty, on a weekday and within budget, the entries are next-fit, and they hold exactly the valid videos |
| Scheduler.EntriesNonEmpty | public/js/scheduler.js:30-59 | every emitted entry has at least one video |
| Scheduler.DaysWithinWeek | public/js/scheduler.js:29-53 | every entry's day is in 0..6: days repeat across weeks |
| Scheduler.WithinBudget | public/js/scheduler.js:22-54 | each entry's total duration is at most its day's effective budget: `wa[d]`, or `wa[0]` when the code falls back |
| Scheduler.PlacesValidVideosInOrder | public/js/scheduler.js:24-64 | the entries' videos, in emission order, are exactly the input filtered to `duration <= max`, in input order; a video is scheduled iff it is valid |
| Scheduler.NextFitClosure | public/js/scheduler.js:41-51 | for consecutive entries, the first's total plus the duration of the second's first video exceeds the first's budget: a day closes only when the next video does not fit |
| Scheduler.SummaryCounts | public/js/scheduler.js:24-71 | `unwatchableVideos` counts the inputs over the maximum, and it plus the placed videos is the input size; `totalDays` is the entry count; `totalWeeks` is its ceiling over 7 |
| Scheduler.AllValid | public/js/scheduler.js:25 | when no video exceeds the maximum the filter keeps the whole list |
| Scheduler.PlaceNextDay | public/js/scheduler.js:41-55 | a video that does not fit today but fits tomorrow's budget is placed on the next day after today is closed |
| Scheduler.FallbackTrace | public/js/scheduler.js:27-57 | with `[60, 0, 0, 0, 0, 0, 0]` and videos of 30, 45 and 20 minutes, the loop ends on day 2 with days 0 and 1 emitted |
| Scheduler.ZeroDayGetsVideos | public/js/scheduler.js:54 | as written, that input yields entries on days 0, 1 and 2, and day 1 holds 45 minutes although its availability is 0 |
| Scheduler.IntendedRespectsAvailability | public/js/scheduler.js:54 | under the corrected rule every entry's total is at most the availability entered for its weekday |
| Scheduler.Iterate | public/js/scheduler.js:28-56 | no run means no placement, and a placement needs at least one run of the loop body; `IterateAgrees` ties it to `Place` |
| Scheduler.IterateAgrees | public/js/scheduler.js:28-56 | on a valid week, running the loop body at least `Passes` times places the video exactly where `Place` puts it, and fewer runs place nothing |
| Scheduler.EightRunsPlace | public/js/scheduler.js:28-56 | on a valid week, eight runs of the loop body always place a valid video, at `Place`'s cursor |
| Scheduler.StuckPass | public/js/scheduler.js:41-54 | as written, on a week whose day-0 entry is negative and whose other entries are 0 or that entry, a run of the loop body places nothing and leaves the cursor with nothing placed and the negative time left |
| Scheduler.NegativeWeekSpins | public/js/scheduler.js:28-56 | as written, on such a week no number of runs of the loop body places a video longer than the negative entry |
| Scheduler.NegativeEntryHangs | public/js/scheduler.js:24-56 | as written, `[-5, 0, 0, 0, 0, 0, 0]` lets a 0-minute video through the filter, and no number of runs of the loop body places it |
| Scheduler.Clamp | public/js/scheduler.js:54 | the clamped week has no negative entry and keeps every entry that is not negative |
| Scheduler.ScheduleAnyWeek | public/js/scheduler.js:18-72 | on any seven entries, the entries hold exactly the videos that fit the clamped maximum, in input order, each entry fits its clamped budget, the entries are next-fit, and unwatchable plus placed videos is the input size |
| Scheduler.ClampedAgrees | public/js/scheduler.js:18-72 | on a week with no negative entry the clamped schedule is the schedule as written |
| Keywords.Lower | public/js/keywords.js:40 | lower-casing keeps the length, leaves no upper-case letter, changes only upper-case letters, and shifts each by 32 |
| Keywords.SkipSpaces | public/js/keywords.js:42 | the result is the suffix after a leading whitespace run and starts with a non-space |
| Keywords.Split | public/js/keywords.js:42 | there is at least one field, no field of `split(/\s+/)` holds whitespace, and the fields joined by single spaces give the text with each whitespace run collapsed to one space; this fixes the fields, including the empty ones at a leading or trailing run |
| Keywords.FieldsJoin | public/js/keywords.js:42 | the fields read after a partial word, joined by single spaces, give that word followed by the rest of the text with its whitespace runs collapsed |
| Keywords.FieldsHoldNoSpace | public/js/keywords.js:42 | starting from a partial word without whitespace, no field holds a whitespace character |
| Keywords.Fields | public/js/keywords.js:42 | there is always at least one field; `FieldsJoin` and `FieldsHoldNoSpace` state what the fields are |
| Keywords.Clean | public/js/keywords.js:43 | the cleaned word holds only `[a-z0-9]`, is no longer than the word, and a word already clean is unchanged |
| Keywords.CleanChar | public/js/keywords.js:43 | a single character survives cleaning exactly when it is in `[a-z0-9]` |
| Keywords.CleanAppend | public/js/keywords.js:43 | cleaning a concatenation gives the concatenation of the cleanings, so cleaning keeps exactly the `[a-z0-9]` characters, in order |
| Keywords.CleanAll | public/js/keywords.js:42-43 | there is one cleaned word per field, and each is the cleaning of its field |
| Keywords.VideoTokens | public/js/keywords.js:40-43 | a video's `title + " " + description` gives at least one cleaned word, and each holds only `[a-z0-9]` |
| Keywords.CleanedTokens | public/js/keywords.js:39-43 | every video gives at least one cleaned word; `CleanedWordsClean` and `CleanAppend` state which characters they hold |
| Keywords.CleanedWordsClean | public/js/keywords.js:39-43 | every cleaned word of every video holds only `[a-z0-9]` |
| Keywords.IsNumeric | public/js/keywords.js:47 | a word `isNaN` calls a number is empty or starts with a digit; `NumericExamples` and `NotNumericExamples` pin down which words count as numbers |
| Keywords.NumericExamples | public/js/keywords.js:47 | `2024`, `1e5`, `0x1f`, `0o17` and `0b101` are numbers, so `isNaN` is false on them |
| Keywords.NotNumericExamples | public/js/keywords.js:47 | `e2e`, `0b2`, `1e5x` and `0x` are not numbers |
| Keywords.Keep | public/js/keywords.js:44-48 | a kept word is longer than 2 and not all digits; `KeepExamples` shows which words pass |
| Keywords.StopWordsShort | public/js/keywords.js:18-35 | no stop word is longer than 9 letters |
| Keywords.KeepExamples | public/js/keywords.js:44-48 | `go` (too short), `the` (a stop word) and `2024` (a number) are dropped, and `javascript` is counted |
| Keywords.Kept | public/js/keywords.js:44-48 | a word survives the filter iff it is a cleaned word and has length above 2, is not a stop word and is not numeric |
| Keywords.FirstIdx | public/js/keywords.js:49-55 | the index is the first occurrence of the word, or the length when the word is absent |
| Keywords.KeptFirstOrder | public/js/keywords.js:44-49 | among words the filter keeps, the order of first occurrence after filtering is the order before it |
| Keywords.Bump | public/js/keywords.js:49 | counting a word gives a map whose words are the old ones plus that word; the map grows by one entry exactly when the word is new; `BumpSeen` and `BumpNew` state the counts |
| Keywords.Tally | public/js/keywords.js:37-52 | the map's words are exactly the counted words, and it has no more entries than there are words; `TallySpec` states counts and order |
| Keywords.BumpSeen | public/js/keywords.js:49 | counting a word already in the map keeps it a correct count map of the words so far |
| Keywords.BumpNew | public/js/keywords.js:49 | counting a new word appends it with count 1 and keeps a correct count map |
| Keywords.TallySpec | public/js/keywords.js:37-52 | the map holds each counted word once, with its number of occurrences, in first-occurrence order (insertion order of the object's keys) |
| Keywords.Insert | public/js/keywords.js:56 | one insertion step adds the entry and loses nothing (multiset) |
| Keywords.Sort | public/js/keywords.js:56 | the sort is a permutation of the map's entries |
| Keywords.InsertRanked | public/js/keywords.js:56 | inserting a later-seen entry after all entries with at least its count keeps the list ranked by count, ties by first occurrence |
| Keywords.SortRanked | public/js/keywords.js:55-56 | the stable descending sort of a first-seen-ordered map ranks entries by count and breaks ties by first occurrence |
| Keywords.Top | public/js/keywords.js:57 | the result is the prefix of length `min(n, 5)` |
| Keywords.KeptCounts | public/js/keywords.js:44-49 | the filter keeps every occurrence of a word it keeps |
| Keywords.SortedTally | public/js/keywords.js:37-56 | the sorted map is ranked, holds exactly the counted words, and each count is that word's number of occurrences |
| Keywords.FindTopKeywords | public/js/keywords.js:16-59 | at most 5 entries; `TopKeywordsBounded`, `TopKeywordsQualify`, `TopKeywordsCounts`, `TopKeywordsOrder`, `TopKeywordsComplete` and `TopKeywordsEmpty` state which words come back, with which counts, in which order |
| Keywords.TopNonIncreasing | public/js/keywords.js:56-57 | the first five of a list ranked by count have counts that never increase |
| Keywords.TopCutOff | public/js/keywords.js:57 | an entry of a ranked list that the first five leave out means five were kept and the fifth ranks before it |
| Keywords.TopKeywordsBounded | public/js/keywords.js:56-57 | at most 5 entries, with counts non-increasing from first to last |
| Keywords.TopKeywordsQualify | public/js/keywords.js:43-48 | every returned word is longer than 2, holds only `[a-z0-9]`, is not a stop word and is not numeric |
| Keywords.TopKeywordsCounts | public/js/keywords.js:39-50 | every returned word is one of the words the filter keeps, and its count is the number of cleaned words equal to it across all videos' `title + " " + description`, so at least 1 |
| Keywords.TopKeywordsOrder | public/js/keywords.js:49-56 | returned words are distinct, and words with equal counts appear in order of their first occurrence among all videos' cleaned words |
| Keywords.TopKeywordsComplete | public/js/keywords.js:55-57 | a counted word that is left out means 5 words were returned and the last of them ranks before it, so its count is no greater; with fewer than 5 counted words all are returned |
| Keywords.TopKeywordsEmpty | public/js/keywords.js:37-58 | no videos, or none with a counted word, gives an empty result, and an empty result means no counted word |
| Duration.FindPT | server.js:93 | the match starts at the first `PT` of the text, and there is none exactly when the text has no `PT` |
| Duration.FindPTFrom | server.js:93 | the unanchored scan from a position finds the first `PT` at or after it, or reports that there is none |
| Duration.Value | server.js:97-99 | `parseInt` of a digit run is 0 exactly when every digit is `0`; `DigitsValue` states that it reads a rendered number back |
| Duration.DigitsValue | server.js:97-99 | `parseInt` of a rendered number gives the number back |
| Duration.SecondsToMinutes | server.js:99 | the minutes are the least `m` with `60*m >= seconds` (`Math.ceil(seconds / 60)`) |
| Duration.SecondsRoundUp | server.js:99 | 1 to 60 seconds add exactly one minute, 0 seconds add none, and 60 more seconds add one more minute |
| Duration.RunLength | server.js:93 | the greedy `\d+` covers digits only and stops before a non-digit or the end |
| Duration.Group | server.js:93-99 | a group that does not match consumes nothing; one that matches consumes up to and including its letter |
| Duration.ReadGroups | server.js:96-100 | the groups add nothing to a text that does not start with a digit, and the total is at least 60 times the hours read; `ReadsRendered` states the exact sum |
| Duration.GroupOfRun | server.js:93-99 | a group reads a digit run followed by its own letter as the run's value, and reads nothing when another letter follows the run |
| Duration.ParseDuration | server.js:92-103 | a text with no `PT` gives 0; the result is never negative |
| Duration.FindsRendered | server.js:93 | after a text without `PT`, the match starts at the rendered duration |
| Duration.ReadsRendered | server.js:96-100 | the three groups read a rendered time part back as `60*H + M + ceil(S/60)`, with absent parts counting 0 |
| Duration.ParseRender | server.js:92-103 | `parseDuration(prefix + render(d) + suffix)` is `60*H + M + ceil(S/60)` of `d`, when no `PT` precedes it and no digit follows it |
| Duration.HoursAfterMinutesIgnored | server.js:93 | components are read in H, M, S order only: `PT<m>M<h>H` gives `m` minutes |
| Duration.DayDurationIsZero | server.js:93-102 | a duration with a day part (`P<n>DT...`) has no `PT`, so it gives 0 |

## Left out

- The HTTP server, the YouTube search and detail calls, paging and configuration in
  `server.js` are network I/O. main.js is not part of this model: its DOM reads,
  `fetch` and event wiring are left out. The browser form yields 7 integers; their
  being non-negative is the assumption `ValidWeek`, which the form does not enforce. ui.js is not part of this model: it
  only renders.
- Negative daily budgets are excluded from `CalculateSchedule` by `ValidWeek`. With
  one, the source's inner loop can run forever (see "## Findings");
  `ScheduleAnyWeek` is the corrected function for any seven entries.
- `Math.max` over an empty availability array cannot happen: the week has 7 entries.
- Text is ASCII. Unicode case mapping in `toLowerCase` and the non-ASCII spaces of
  `\s` are not modelled.
- Keywords.TallySpec: the word `constructor` reads `Object.prototype.constructor`
  in the source's plain object, so its count becomes a string. The model counts it
  like any other word. No other `[a-z0-9]` word longer than 2 names an inherited
  property. Integer-like keys, which an object would list first, cannot occur,
  because all-digit words are numeric and filtered out.
- Keywords.IsNumeric: JavaScript's `Number` conversion behind `isNaN` is modelled
  only on `[a-z0-9]` words, which is all that reaches it after cleaning. It treats
  these as numeric: the empty word, decimal digits, `digits e digits` (as in
  `1e5`), and `0x`, `0o` and `0b` integers with valid digits.
- A title or description that is not a string (`undefined` becomes the text
  `"undefined"`) is not modelled: the video record has string fields.
- Duration.ParseDuration: `parseInt` and the division in `Math.ceil(s / 60)` use
  floating point in the source. The model uses exact integers, which differ only
  above 2^53.
- Duration.ParseRender: the round trip is stated for numbers rendered without
  leading zeros. `Value` reads leading zeros as `parseInt` does.

## Findings

| source | as written | input that shows it | evidently intended | confidence | as-written member | corrected member |
|---|---|---|---|---|---|---|
| public/js/scheduler.js:54 | the next day's budget is the logical or of that day's budget and day 0's budget, so a day given 0 minutes gets day 0's budget and receives videos | availability `[60, 0, 0, 0, 0, 0, 0]`, videos of 30, 45 and 20 minutes: they land on days 0, 1 and 2, putting 45 minutes on a 0-minute day | a 0 budget means no videos that day. The fallback is only needed for index 7, whose budget the wrap check replaces anyway | medium, not executed | Scheduler.ZeroDayGetsVideos | Scheduler.IntendedRespectsAvailability |
| public/js/main.js:25 | each availability field is read as `parseInt(value) \|\| 0`, which lets a negative number through; with a negative entry the inner loop of `calculateSchedule` never ends | availability `[-5, 0, 0, 0, 0, 0, 0]` and a video lasting `P0D` (0 minutes): the video passes the filter, since the maximum is 0, but every day's budget reads as -5, so it never fits | a negative availability counts as no time, so the loop always ends | medium, not executed | Scheduler.NegativeEntryHangs | Scheduler.ScheduleAnyWeek |

=== FILE: ascii.dfy ===
/** ASCII character classes shared by the keyword extractor and the duration parser. */
module Ascii {

  /** The regex class `\d`: the ten ASCII digits. */
  predicate IsDigit(c: char) { '0' <= c <= '9' }

  predicate AllDigits(s: string) { forall i :: 0 <= i < |s| ==> IsDigit(s[i]) }
}

=== FILE: duration.dfy ===
/**
 The duration parser (`parseDuration`) that turns the ISO 8601 duration of a video
 (`PT1H2M30S`) into whole minutes.

 The source matches `/PT(\d+H)?(\d+M)?(\d+S)?/` without anchors. The match starts
 at the first `PT` in the text, since every group is optional. Each group then
 matches exactly when the text at that point is a non-empty run of digits directly
 followed by the group's letter: the run is taken greedily and shortening it only
 leaves another digit before the letter. A group that does not match consumes
 nothing. Hours count 60 minutes, minutes count one, and seconds are rounded up
 to whole minutes.
 */
module Duration {
  import opened Ascii

  /** A value that may be absent: a regex group that did not take part, or a `PT` not found. */
  datatype Option<T> = None | Some(value: T)

  /** What a group adds to the total: its number, or nothing when absent (`if (match[i])`). */
  function Amount(o: Option<nat>): nat {
    if o.Some? then o.value else 0
  }

  const MinutesPerHour := 60
  const SecondsPerMinute := 60

  /* ---------- Locating the match ---------- */

  /** `PT` starts at index `i` of `s`. */
  predicate PTAt(s: string, i: int) {
    0 <= i && i + 1 < |s| && s[i] == 'P' && s[i + 1] == 'T'
  }

  predicate HasPT(s: string) {
    exists i :: 0 <= i < |s| && PTAt(s, i)
  }

  /** The index where the regex match starts: the first `PT` at or after `k`. */
  function FindPTFrom(s: string, k: nat): (r: Option<nat>)
    requires k <= |s|
    ensures r.Some? ==> k <= r.value && PTAt(s, r.value)
    ensures r.Some? ==> forall j :: k <= j < r.value ==> !PTAt(s, j)
    ensures r.None? ==> forall j :: k <= j ==> !PTAt(s, j)
    decreases |s| - k
  {
    if k + 1 >= |s| then None
    else if s[k] == 'P' && s[k + 1] == 'T' then Some(k)
    else FindPTFrom(s, k + 1)
  }

  /** The first `PT` of `s`, if there is one. */
  function FindPT(s: string): (r: Option<nat>)
    ensures r.Some? ==> PTAt(s, r.value) && forall j :: 0 <= j < r.value ==> !PTAt(s, j)
    ensures r.None? <==> !HasPT(s)
  {
    FindPTFrom(s, 0)
  }

  /* ---------- Numbers ---------- */

  function DigitValue(c: char): nat
    requires IsDigit(c)
  {
    c as int - '0' as int
  }

  /** `parseInt` on a string of decimal digits (leading zeros allowed). */
  function Value(d: string): (r: nat)
    requires AllDigits(d)
    ensures r == 0 <==> forall i :: 0 <= i < |d| ==> d[i] == '0'
  {
    if d == [] then 0 else 10 * Value(d[..|d| - 1]) + DigitValue(d[|d| - 1])
  }

  /** The decimal rendering of `n`, without leading zeros. */
  function Digits(n: nat): (d: string)
    ensures |d| > 0 && AllDigits(d)
  {
    if n < 10 then [('0' as int + n) as char]
    else Digits(n / 10) + [('0' as int + n % 10) as char]
  }

  /** Reading the rendering of a number gives the number back. */
  lemma {:induction false} DigitsValue(n: nat)
    ensures Value(Digits(n)) == n
  {
    if n >= 10 {
      DigitsValue(n / 10);
      var d := Digits(n);
      assert d[..|d| - 1] == Digits(n / 10);
    }
  }

  /** `Math.ceil(seconds / 60)` for a whole number of seconds. */
  function SecondsToMinutes(seconds: nat): (minutes: nat)
    ensures SecondsPerMinute * minutes >= seconds
    ensures SecondsPerMinute * minutes < seconds + SecondsPerMinute
  {
    (seconds + SecondsPerMinute - 1) / SecondsPerMinute
  }

  /** A part of a second rounds up to a whole minute; no seconds add nothing. */
  lemma SecondsRoundUp(seconds: nat)
    ensures 0 < seconds <= SecondsPerMinute ==> SecondsToMinutes(seconds) == 1
    ensures seconds == 0 ==> SecondsToMinutes(seconds) == 0
    ensures SecondsToMinutes(seconds + SecondsPerMinute) == SecondsToMinutes(seconds) + 1
  {
  }

  /* ---------- The groups ---------- */

  /** Length of the run of digits that `s` starts with. */
  function RunLength(s: string): (n: nat)
    ensures n <= |s|
    ensures forall i :: 0 <= i < n ==> IsDigit(s[i])
    ensures n < |s| ==> !IsDigit(s[n])
  {
    if s != [] && IsDigit(s[0]) then 1 + RunLength(s[1..]) else 0
  }

  /** What one optional group read, and the text after it. */
  datatype Field = Field(amount: Option<nat>, rest: string)

  /** The optional group `(\d+U)?` for the letter `unit` at the start of `s`. */
  function Group(s: string, unit: char): (f: Field)
    ensures f.amount.None? ==> f.rest == s
    ensures f.amount.Some? ==> |f.rest| < |s| && s[|s| - |f.rest| - 1] == unit && f.rest == s[|s| - |f.rest|..]
  {
    var n := RunLength(s);
    if 0 < n < |s| && s[n] == unit then Field(Some(Value(s[..n])), s[n + 1..]) else Field(None, s)
  }

  /** `parseDuration`: the duration in whole minutes, 0 when the text holds no `PT`. */
  function ParseDuration(s: string): (minutes: nat)
    ensures !HasPT(s) ==> minutes == 0
  {
    match FindPT(s)
    case None => 0
    case Some(p) => ReadGroups(s[p + 2..])
  }

  /** The minutes read by the three groups from the text right after `PT`. */
  function ReadGroups(t: string): (r: nat)
    ensures t == [] || !IsDigit(t[0]) ==> r == 0
    ensures r >= MinutesPerHour * Amount(Group(t, 'H').amount)
  {
    var h := Group(t, 'H');
    var m := Group(h.rest, 'M');
    var sec := Group(m.rest, 'S');
    MinutesPerHour * Amount(h.amount) + Amount(m.amount) + SecondsToMinutes(Amount(sec.amount))
  }

  /* ---------- Rendering, and reading back ---------- */

  /** The time part of an ISO 8601 duration, each component present or not. */
  datatype IsoDuration = IsoDuration(hours: Option<nat>, minutes: Option<nat>, seconds: Option<nat>)

  /** One component: its number and letter, or nothing. */
  function Part(o: Option<nat>, unit: char): string {
    match o
    case None => []
    case Some(n) => Digits(n) + [unit]
  }

  /** The duration as the API writes it: `PT`, then hours, minutes and seconds. */
  function Render(d: IsoDuration): string {
    "PT" + Part(d.hours, 'H') + Part(d.minutes, 'M') + Part(d.seconds, 'S')
  }

  /** The minutes a duration is worth: seconds round up to a whole minute. */
  function Minutes(d: IsoDuration): nat {
    MinutesPerHour * Amount(d.hours) + Amount(d.minutes) + SecondsToMinutes(Amount(d.seconds))
  }

  /** A group reads a run of digits when the letter after it is its own, and nothing otherwise. */
  lemma GroupOfRun(ds: string, u: char, rest: string, unit: char)
    requires |ds| > 0 && AllDigits(ds) && !IsDigit(u)
    ensures Group(ds + [u] + rest, unit) ==
      if u == unit then Field(Some(Value(ds)), rest) else Field(None, ds + [u] + rest)
  {
    var s := ds + [u] + rest;
    var r := RunLength(s);
    assert forall i :: 0 <= i < |ds| ==> s[i] == ds[i];
    assert s[|ds|] == u;
    assert r == |ds|;
    assert s[..r] == ds;
    assert s[r + 1..] == rest;
  }

  /** A group reads a rendered number when the letter is its own, and nothing otherwise. */
  lemma GroupOfPart(n: nat, u: char, rest: string, unit: char)
    requires !IsDigit(u)
    ensures Group(Digits(n) + [u] + rest, unit) ==
      if u == unit then Field(Some(n), rest) else Field(None, Digits(n) + [u] + rest)
  {
    GroupOfRun(Digits(n), u, rest, unit);
    DigitsValue(n);
  }

  /** No group for `unit` is read before a later component or a text that starts with no digit. */
  lemma NoGroup(m: Option<nat>, sec: Option<nat>, suffix: string, unit: char)
    requires m.Some? ==> unit != 'M'
    requires sec.Some? ==> unit != 'S'
    requires suffix == [] || !IsDigit(suffix[0])
    ensures var t := Part(m, 'M') + Part(sec, 'S') + suffix; Group(t, unit) == Field(None, t)
  {
    var t := Part(m, 'M') + Part(sec, 'S') + suffix;
    if m.Some? {
      var rest := Part(sec, 'S') + suffix;
      assert t == Digits(m.value) + ['M'] + rest;
      GroupOfPart(m.value, 'M', rest, unit);
    } else if sec.Some? {
      assert t == Digits(sec.value) + ['S'] + suffix;
      GroupOfPart(sec.value, 'S', suffix, unit);
    } else {
      assert t == suffix;
    }
  }

  /** The first `PT` of the text is the one that opens the rendered duration. */
  lemma FindsRendered(prefix: string, d: IsoDuration, suffix: string)
    requires !HasPT(prefix)
    ensures FindPT(prefix + Render(d) + suffix) == Some(|prefix|)
  {
    var t := prefix + Render(d) + suffix;
    var p := |prefix|;
    assert t[p] == 'P' && t[p + 1] == 'T';
    assert PTAt(t, p);
    forall j | 0 <= j < p
      ensures !PTAt(t, j)
    {
      if j + 1 < p {
        assert !PTAt(prefix, j);
      } else {
        assert t[j + 1] == 'P';
      }
    }
  }

  /** The hours group reads the rendered hours, and nothing when there are none. */
  lemma ReadsHours(h: Option<nat>, m: Option<nat>, sec: Option<nat>, suffix: string)
    requires suffix == [] || !IsDigit(suffix[0])
    ensures var t1 := Part(m, 'M') + Part(sec, 'S') + suffix;
      Group(Part(h, 'H') + t1, 'H') == Field(h, t1)
  {
    var t1 := Part(m, 'M') + Part(sec, 'S') + suffix;
    if h.Some? {
      GroupOfPart(h.value, 'H', t1, 'H');
    } else {
      NoGroup(m, sec, suffix, 'H');
      assert Part(h, 'H') + t1 == t1;
    }
  }

  /** The minutes group reads the rendered minutes, and nothing when there are none. */
  lemma ReadsMinutes(m: Option<nat>, sec: Option<nat>, suffix: string)
    requires suffix == [] || !IsDigit(suffix[0])
    ensures var t2 := Part(sec, 'S') + suffix;
      Group(Part(m, 'M') + t2, 'M') == Field(m, t2)
  {
    var t2 := Part(sec, 'S') + suffix;
    if m.Some? {
      GroupOfPart(m.value, 'M', t2, 'M');
    } else {
      NoGroup(None, sec, suffix, 'M');
      assert Part(m, 'M') + t2 == Part(None, 'M') + Part(sec, 'S') + suffix;
    }
  }

  /** The seconds group reads the rendered seconds, and nothing when there are none. */
  lemma ReadsSeconds(sec: Option<nat>, suffix: string)
    requires suffix == [] || !IsDigit(suffix[0])
    ensures Group(Part(sec, 'S') + suffix, 'S') == Field(sec, suffix)
  {
    if sec.Some? {
      GroupOfPart(sec.value, 'S', suffix, 'S');
    } else {
      NoGroup(None, None, suffix, 'S');
      assert Part(sec, 'S') + suffix == Part(None, 'M') + Part(None, 'S') + suffix;
    }
  }

  /** The groups read a rendered time part back as its worth in minutes. */
  lemma ReadsRendered(d: IsoDuration, suffix: string)
    requires suffix == [] || !IsDigit(suffix[0])
    ensures ReadGroups(Part(d.hours, 'H') + Part(d.minutes, 'M') + Part(d.seconds, 'S') + suffix) == Minutes(d)
  {
    var t2 := Part(d.seconds, 'S') + suffix;
    var t1 := Part(d.minutes, 'M') + t2;
    Regroup(Part(d.hours, 'H'), Part(d.minutes, 'M'), Part(d.seconds, 'S'), suffix);
    ReadsHours(d.hours, d.minutes, d.seconds, suffix);
    Assoc(Part(d.minutes, 'M'), Part(d.seconds, 'S'), suffix);
    ReadsMinutes(d.minutes, d.seconds, suffix);
    ReadsSeconds(d.seconds, suffix);
    ReadsFields(Part(d.hours, 'H') + t1, d, t1, t2, suffix);
  }

  /** Solver hint: concatenation regrouped to the right. */
  lemma Assoc(a: string, b: string, c: string)
    ensures a + b + c == a + (b + c)
  {
  }

  /** Solver hint: four pieces regrouped to the right. */
  lemma Regroup(a: string, b: string, c: string, e: string)
    ensures a + b + c + e == a + (b + (c + e))
  {
  }

  lemma ReadsFields(t: string, d: IsoDuration, t1: string, t2: string, suffix: string)
    requires Group(t, 'H') == Field(d.hours, t1)
    requires Group(t1, 'M') == Field(d.minutes, t2)
    requires Group(t2, 'S') == Field(d.seconds, suffix)
    ensures ReadGroups(t) == Minutes(d)
  {
  }

  /**
   Reading a rendered duration gives its worth in minutes, whatever text without
   `PT` comes before it and whatever text not starting with a digit comes after it.
   */
  lemma ParseRender(prefix: string, d: IsoDuration, suffix: string)
    requires !HasPT(prefix)
    requires suffix == [] || !IsDigit(suffix[0])
    ensures ParseDuration(prefix + Render(d) + suffix) == Minutes(d)
  {
    FindsRendered(prefix, d, suffix);
    AfterRenderedPT(prefix, d, suffix);
    ReadsRendered(d, suffix);
  }

  /** What follows the opening `PT` of a rendered duration is its components, then the suffix. */
  lemma AfterRenderedPT(prefix: string, d: IsoDuration, suffix: string)
    ensures (prefix + Render(d) + suffix)[|prefix| + 2..]
      == Part(d.hours, 'H') + Part(d.minutes, 'M') + Part(d.seconds, 'S') + suffix
  {
    var body := Part(d.hours, 'H') + Part(d.minutes, 'M') + Part(d.seconds, 'S');
    Regroup("PT", Part(d.hours, 'H'), Part(d.minutes, 'M'), Part(d.seconds, 'S'));
    Regroup(prefix, "PT", body, suffix);
    assert |prefix + "PT"| == |prefix| + 2;
    assert (prefix + ("PT" + (body + suffix)))[|prefix| + 2..] == body + suffix;
  }

  /** The groups are read in the order H, M, S only: hours written after minutes are not counted. */
  lemma HoursAfterMinutesIgnored(m: nat, h: nat)
    ensures ParseDuration("PT" + Digits(m) + "M" + Digits(h) + "H") == m
  {
    OpensWithPT(Digits(m) + "M" + (Digits(h) + "H"));
    RegroupLast("PT", Digits(m), "M", Digits(h), "H");
    MinutesThenHours(m, h);
  }

  /** A text that opens with `PT` is read from the text right after it. */
  lemma OpensWithPT(body: string)
    ensures ParseDuration("PT" + body) == ReadGroups(body)
  {
    var t := "PT" + body;
    assert PTAt(t, 0);
    assert t[2..] == body;
  }

  /** Solver hint: five pieces regrouped as the minutes-then-hours split reads them. */
  lemma RegroupLast(a: string, b: string, c: string, d: string, e: string)
    ensures a + b + c + d + e == a + (b + c + (d + e))
  {
  }

  lemma MinutesThenHours(m: nat, h: nat)
    ensures ReadGroups(Digits(m) + "M" + (Digits(h) + "H")) == m
  {
    var rest := Digits(h) + "H";
    var body := Digits(m) + "M" + rest;
    GroupOfPart(m, 'M', rest, 'H');
    GroupOfPart(m, 'M', rest, 'M');
    GroupOfPart(h, 'H', [], 'S');
    assert rest == Digits(h) + "H" + [];
    ReadsFields(body, IsoDuration(None, Some(m), None), body, rest, rest);
  }

  /** Joining two texts without `PT` makes one only when the first ends in `P` and the second starts with `T`. */
  lemma NoPTAcross(a: string, b: string)
    requires !HasPT(a) && !HasPT(b)
    requires a == [] || a[|a| - 1] != 'P'
    ensures !HasPT(a + b)
  {
    var t := a + b;
    forall j | 0 <= j < |t|
      ensures !PTAt(t, j)
    {
      if j + 1 < |a| {
        assert !PTAt(a, j);
      } else if j >= |a| {
        assert !PTAt(b, j - |a|);
      }
    }
  }

  /** The date part `P<n>DT` holds no `PT`. */
  lemma NoPTInDayHead(n: nat)
    ensures !HasPT("P" + Digits(n) + "DT")
  {
    var d := Digits(n);
    var head := "P" + d + "DT";
    forall j | 0 <= j < |head|
      ensures !PTAt(head, j)
    {
      if j == 0 {
        assert head[1] == d[0];
      } else if j <= |d| {
        assert head[j] == d[j - 1];
      }
    }
  }

  /** A duration with a day part has no `PT` (the `T` follows the `D`), so it reads as 0 minutes. */
  lemma DayDurationIsZero(n: nat, tail: string)
    requires !HasPT(tail)
    ensures ParseDuration("P" + Digits(n) + "DT" + tail) == 0
  {
    NoPTInDayHead(n);
    NoPTAcross("P" + Digits(n) + "DT", tail);
  }
}

=== FILE: keywords.dfy ===
/**
 The keyword frequency extractor (`findTopKeywords`).

 Each video contributes the words of `title + " " + description`, lower-cased,
 split on whitespace runs and stripped of every character outside `[a-z0-9]`.
 Words that are short, stop words or numeric are dropped; the rest are counted
 in an insertion-ordered map, which is then stably sorted by descending count
 and cut to its first five entries. Text is ASCII.
 */
module Keywords {
  import opened Ascii
  import opened Videos
  import opened Seqs

  datatype KeywordCount = KeywordCount(word: string, count: int)

  /** `.slice(0, 5)`. */
  const TopLimit := 5

  /** Words whose cleaned length is at most this are dropped (`length > 2`). */
  const MaxShortLength := 2

  /** The `stopWords` set, group by group as the source lists it. */
  const StopWords: set<string> := ArticleWords + CommonWords + WebWords + NumberWords + SiteWords

  const ArticleWords: set<string> := {
    "a", "an", "the", "in", "on", "at", "to", "for", "of", "with", "by", "com",
    "and", "or", "but", "nor", "yet", "so", "as", "que", "de", "do", "da"
  }

  const CommonWords: set<string> := {
    "how", "what", "why", "when", "where", "who", "which", "this", "that",
    "these", "those", "am", "is", "are", "was", "were", "be", "been", "being",
    "have", "has", "had", "will", "would", "shall", "should", "may", "might",
    "must", "can", "could"
  }

  const WebWords: set<string> := {"http", "https", "www", "com", "org", "net", "edu", "gov", "io"}

  const NumberWords: set<string> := {"one", "two", "three", "four", "five", "first", "second", "third"}

  const SiteWords: set<string> := {
    "video", "channel", "subscribe", "like", "comment", "watch", "playlist",
    "youtube", "youtu", "view", "views", "new", "official"
  }

  /* ---------- Characters ---------- */

  /** The ASCII characters of the regex class `\s`. */
  predicate IsSpace(c: char) {
    c == ' ' || c == '\t' || c == '\n' || c == '\r' || c == '\U{000B}' || c == '\U{000C}'
  }

  predicate IsUpper(c: char) { 'A' <= c <= 'Z' }

  /** The class `[a-z0-9]` that cleaning keeps. */
  predicate IsWordChar(c: char) { 'a' <= c <= 'z' || IsDigit(c) }

  function LowerChar(c: char): char {
    if IsUpper(c) then (c as int + 32) as char else c
  }

  /** `toLowerCase` on ASCII text. */
  function Lower(s: string): (r: string)
    ensures |r| == |s|
    ensures forall i :: 0 <= i < |r| ==> !IsUpper(r[i])
    ensures forall i :: 0 <= i < |s| && !IsUpper(s[i]) ==> r[i] == s[i]
    ensures forall i :: 0 <= i < |s| && IsUpper(s[i]) ==> r[i] as int == s[i] as int + 32
  {
    seq(|s|, i requires 0 <= i < |s| => LowerChar(s[i]))
  }

  /* ---------- Splitting and cleaning ---------- */

  /** Drops a leading run of whitespace. */
  function SkipSpaces(s: string): (r: string)
    ensures |r| <= |s| && r == s[|s| - |r|..]
    ensures r != [] ==> !IsSpace(r[0])
    ensures forall i :: 0 <= i < |s| - |r| ==> IsSpace(s[i])
  {
    if s != [] && IsSpace(s[0]) then
      var r := SkipSpaces(s[1..]);
      assert s[1..][|s| - 1 - |r|..] == s[|s| - |r|..];
      assert forall i :: 1 <= i < |s| - |r| ==> s[i] == s[1..][i - 1];
      r
    else s
  }

  /** The fields of `s` after the partial field `cur`, each whitespace run ending one field. */
  function Fields(s: string, cur: string): (r: seq<string>)
    ensures |r| > 0
    decreases |s|
  {
    if s == [] then [cur]
    else if IsSpace(s[0]) then [cur] + Fields(SkipSpaces(s[1..]), [])
    else Fields(s[1..], cur + [s[0]])
  }

  /**
   `s.split(/\s+/)`. Splitting cuts exactly at the whitespace runs: no field holds
   whitespace, and the fields joined by single spaces give back the text with each
   run collapsed to one space. The two together determine the fields, including the
   empty ones a leading or trailing run gives.
   */
  function Split(s: string): (r: seq<string>)
    ensures |r| > 0
    ensures forall t :: t in r ==> forall i :: 0 <= i < |t| ==> !IsSpace(t[i])
    ensures Join(r) == Collapse(s)
  {
    FieldsHoldNoSpace(s, []);
    FieldsJoin(s, []);
    Fields(s, [])
  }

  /** `s` with every run of whitespace replaced by a single space. */
  function Collapse(s: string): string
    decreases |s|
  {
    if s == [] then []
    else if IsSpace(s[0]) then [' '] + Collapse(SkipSpaces(s[1..]))
    else [s[0]] + Collapse(s[1..])
  }

  /** The strings of `ss` joined by single spaces (`ss.join(' ')`). */
  function Join(ss: seq<string>): string {
    if |ss| <= 1 then (if ss == [] then [] else ss[0]) else ss[0] + [' '] + Join(ss[1..])
  }

  lemma {:induction false} FieldsHoldNoSpace(s: string, cur: string)
    requires forall i :: 0 <= i < |cur| ==> !IsSpace(cur[i])
    ensures forall t :: t in Fields(s, cur) ==> forall i :: 0 <= i < |t| ==> !IsSpace(t[i])
    decreases |s|
  {
    if s != [] && IsSpace(s[0]) {
      FieldsHoldNoSpace(SkipSpaces(s[1..]), []);
    } else if s != [] {
      FieldsHoldNoSpace(s[1..], cur + [s[0]]);
    }
  }

  lemma JoinCons(t: string, ss: seq<string>)
    requires |ss| > 0
    ensures Join([t] + ss) == t + [' '] + Join(ss)
  {
    assert ([t] + ss)[1..] == ss;
  }

  /** The fields after the partial field `cur`, joined, are `cur` and then the collapsed text. */
  lemma {:induction false} FieldsJoin(s: string, cur: string)
    ensures Join(Fields(s, cur)) == cur + Collapse(s)
    decreases |s|, 1
  {
    if s == [] {
    } else if IsSpace(s[0]) {
      FieldsJoinAtSpace(s, cur);
    } else {
      FieldsJoinAtWordChar(s, cur);
    }
  }

  /** The case of `FieldsJoin` where a whitespace run closes the partial field. */
  lemma {:induction false} FieldsJoinAtSpace(s: string, cur: string)
    requires s != [] && IsSpace(s[0])
    ensures Join(Fields(s, cur)) == cur + Collapse(s)
    decreases |s|, 0
  {
    var rest := SkipSpaces(s[1..]);
    FieldsJoin(rest, []);
    JoinAtSpace(s, cur);
    assert Collapse(s) == [' '] + Collapse(rest);
    SpaceRegroup(cur, Join(Fields(rest, [])), Collapse(rest));
  }

  /** Solver hint: regroups the concatenation around the separating space. */
  lemma SpaceRegroup(cur: string, joined: string, collapsed: string)
    requires joined == [] + collapsed
    ensures cur + [' '] + joined == cur + ([' '] + collapsed)
  {
    assert [] + collapsed == collapsed;
  }

  /** The case of `FieldsJoin` where the next character extends the partial field. */
  lemma {:induction false} FieldsJoinAtWordChar(s: string, cur: string)
    requires s != [] && !IsSpace(s[0])
    ensures Join(Fields(s, cur)) == cur + Collapse(s)
    decreases |s|, 0
  {
    var rest := Collapse(s[1..]);
    FieldsJoin(s[1..], cur + [s[0]]);
    assert cur + [s[0]] + rest == cur + ([s[0]] + rest);
  }

  /** A whitespace run ends the partial field and is joined back as one space. */
  lemma JoinAtSpace(s: string, cur: string)
    requires s != [] && IsSpace(s[0])
    ensures Join(Fields(s, cur)) == cur + [' '] + Join(Fields(SkipSpaces(s[1..]), []))
  {
    JoinCons(cur, Fields(SkipSpaces(s[1..]), []));
  }

  /** `word.replace(/[^a-z0-9]/g, '')`. */
  function Clean(t: string): (r: string)
    ensures |r| <= |t|
    ensures forall i :: 0 <= i < |r| ==> IsWordChar(r[i])
    ensures (forall i :: 0 <= i < |t| ==> IsWordChar(t[i])) ==> r == t
  {
    if t == [] then []
    else Clean(t[..|t| - 1]) + (if IsWordChar(t[|t| - 1]) then [t[|t| - 1]] else [])
  }

  /** A single character is kept exactly when it is in `[a-z0-9]`. */
  lemma CleanChar(c: char)
    ensures Clean([c]) == if IsWordChar(c) then [c] else []
  {
    assert [c][..0] == [];
  }

  /**
   The cleaning of a concatenation is the concatenation of the cleanings. With
   `CleanChar` this fixes the result: the word's `[a-z0-9]` characters, in order.
   */
  lemma {:induction false} CleanAppend(a: string, b: string)
    ensures Clean(a + b) == Clean(a) + Clean(b)
    decreases |b|
  {
    if b == [] {
      assert a + b == a;
    } else {
      var b', x := b[..|b| - 1], b[|b| - 1];
      CleanAppend(a, b');
      var t := a + b;
      assert t[..|t| - 1] == a + b' && t[|t| - 1] == x;
      var tail := if IsWordChar(x) then [x] else [];
      assert Clean(t) == Clean(a + b') + tail;
      assert Clean(b) == Clean(b') + tail;
    }
  }

  function CleanAll(ts: seq<string>): (r: seq<string>)
    ensures |r| == |ts|
    ensures forall i :: 0 <= i < |ts| ==> r[i] == Clean(ts[i])
  {
    if ts == [] then [] else CleanAll(ts[..|ts| - 1]) + [Clean(ts[|ts| - 1])]
  }

  /** The cleaned words of one video, in order, empty ones included. */
  function VideoTokens(v: Video): (r: seq<string>)
    ensures |r| > 0
    ensures forall w :: w in r ==> forall i :: 0 <= i < |w| ==> IsWordChar(w[i])
  {
    CleanAllClean(Split(Lower(v.title + " " + v.description)));
    CleanAll(Split(Lower(v.title + " " + v.description)))
  }

  /** The cleaned words of all videos, in order. */
  function CleanedTokens(videos: seq<Video>): (r: seq<string>)
    ensures |r| >= |videos|
  {
    if videos == [] then [] else CleanedTokens(videos[..|videos| - 1]) + VideoTokens(videos[|videos| - 1])
  }

  /* ---------- The filter ---------- */

  predicate IsHexDigit(c: char) { IsDigit(c) || 'a' <= c <= 'f' }

  predicate IsOctalDigit(c: char) { '0' <= c <= '7' }

  predicate IsBinaryDigit(c: char) { c == '0' || c == '1' }

  /** `s` is `0` and the prefix letter `p`, then at least one digit satisfying `digit`. */
  predicate Prefixed(s: string, p: char, digit: char -> bool) {
    |s| > 2 && s[0] == '0' && s[1] == p && forall i :: 2 <= i < |s| ==> digit(s[i])
  }

  /**
   `isNaN(s)` is false: for a string over `[a-z0-9]`, JavaScript's string-to-number
   conversion succeeds on the empty string, on decimal digits with an optional
   exponent (`1e5`), and on `0x`, `0o` and `0b` integers.
   */
  predicate IsNumeric(s: string)
    ensures IsNumeric(s) ==> s == [] || IsDigit(s[0])
  {
    || s == []
    || (|s| > 0 && AllDigits(s))
    || (exists i :: 0 < i < |s| - 1 && s[i] == 'e' && AllDigits(s[..i]) && AllDigits(s[i + 1..]))
    || Prefixed(s, 'x', IsHexDigit)
    || Prefixed(s, 'o', IsOctalDigit)
    || Prefixed(s, 'b', IsBinaryDigit)
  }

  /** The condition under which a cleaned word is counted: long enough, not a stop word, not a number. */
  predicate Keep(w: string)
    ensures Keep(w) ==> |w| > MaxShortLength && !AllDigits(w)
  {
    |w| > MaxShortLength && w !in StopWords && !IsNumeric(w)
  }

  /** `isNaN` on cleaned words: decimal, exponent and prefixed integers are numbers. */
  lemma NumericExamples()
    ensures IsNumeric("2024") && IsNumeric("1e5") && IsNumeric("0x1f") && IsNumeric("0o17") && IsNumeric("0b101")
  {
    assert "1e5"[1] == 'e' && AllDigits("1e5"[..1]) && AllDigits("1e5"[2..]);
  }

  /** Words that only look numeric are not numbers: a bad digit or a trailing letter spoils them. */
  lemma NotNumericExamples()
    ensures !IsNumeric("e2e") && !IsNumeric("0b2") && !IsNumeric("1e5x") && !IsNumeric("0x")
  {
    assert !AllDigits("1e5x"[2..]) by { assert "1e5x"[2..][1] == 'x'; }
    assert "0b2"[1] == 'b' && "0b2"[2] == '2' && !IsBinaryDigit('2');
    assert "0x"[1] == 'x' && !IsDigit('x');
  }

  /** No stop word is longer than nine letters. */
  lemma StopWordsShort()
    ensures forall w :: w in StopWords ==> |w| <= 9
  {
    ArticleWordsShort();
    CommonWordsShort();
    WebNumberWordsShort();
    SiteWordsShort();
  }

  lemma ArticleWordsShort()
    ensures forall w :: w in ArticleWords ==> |w| <= 4
  {
  }

  lemma CommonWordsShort()
    ensures forall w :: w in CommonWords ==> |w| <= 6
  {
  }

  lemma WebNumberWordsShort()
    ensures forall w :: w in WebWords ==> |w| <= 5
    ensures forall w :: w in NumberWords ==> |w| <= 6
  {
  }

  lemma SiteWordsShort()
    ensures forall w :: w in SiteWords ==> |w| <= 9
  {
  }

  /** Short words, stop words and numbers are dropped; other words are counted. */
  lemma KeepExamples()
    ensures !Keep("go") && !Keep("the") && !Keep("2024") && Keep("javascript")
  {
    NumericExamples();
    StopWordsShort();
    assert "javascript"[0] == 'j' && !IsDigit('j');
    assert "the" in StopWords;
  }

  /** The cleaned words that are counted, in order. */
  function Kept(ts: seq<string>): (r: seq<string>)
    ensures forall w :: w in r <==> w in ts && Keep(w)
  {
    if ts == [] then []
    else Kept(ts[..|ts| - 1]) + (if Keep(ts[|ts| - 1]) then [ts[|ts| - 1]] else [])
  }

  function KeptTokens(videos: seq<Video>): seq<string> {
    Kept(CleanedTokens(videos))
  }

  /* ---------- The insertion-ordered count map ---------- */

  /** Index of the first occurrence of `x` in `s`, or `|s|` when there is none. */
  function FirstIdx<T(==)>(x: T, s: seq<T>): (i: nat)
    ensures i <= |s|
    ensures i < |s| <==> x in s
    ensures i < |s| ==> s[i] == x
    ensures forall j :: 0 <= j < i ==> s[j] != x
  {
    if s == [] then 0 else if s[0] == x then 0 else 1 + FirstIdx(x, s[1..])
  }

  lemma FirstIdxAppend<T>(x: T, s: seq<T>, t: seq<T>)
    requires x in s
    ensures FirstIdx(x, s + t) == FirstIdx(x, s)
  {
    var i := FirstIdx(x, s);
    assert (s + t)[i] == x;
  }

  lemma FirstIdxNew<T>(x: T, s: seq<T>)
    requires x !in s
    ensures FirstIdx(x, s + [x]) == |s|
  {
    assert (s + [x])[|s|] == x;
  }

  /** The filter keeps the order of first occurrence among the words it keeps. */
  lemma {:induction false} KeptFirstOrder(ts: seq<string>, u: string, w: string)
    requires Keep(u) && Keep(w) && u in ts && w in ts
    ensures FirstIdx(u, Kept(ts)) < FirstIdx(w, Kept(ts)) <==> FirstIdx(u, ts) < FirstIdx(w, ts)
  {
    var s, x := ts[..|ts| - 1], ts[|ts| - 1];
    assert ts == s + [x];
    var k := Kept(s);
    if !Keep(x) {
      assert Kept(ts) == k;
      KeptFirstOrder(s, u, w);
      FirstIdxAppend(u, s, [x]);
      FirstIdxAppend(w, s, [x]);
    } else {
      assert Kept(ts) == k + [x];
      if u in s && w in s {
        KeptFirstOrder(s, u, w);
        FirstIdxAppend(u, s, [x]);
        FirstIdxAppend(w, s, [x]);
        FirstIdxAppend(u, k, [x]);
        FirstIdxAppend(w, k, [x]);
      } else if u in s {
        FirstIdxAppend(u, s, [x]);
        FirstIdxAppend(u, k, [x]);
        FirstIdxNew(w, s);
        FirstIdxNew(w, k);
      } else if w in s {
        FirstIdxAppend(w, s, [x]);
        FirstIdxAppend(w, k, [x]);
        FirstIdxNew(u, s);
        FirstIdxNew(u, k);
      }
    }
  }

  function Words(m: seq<KeywordCount>): (ws: seq<string>)
    ensures |ws| == |m|
    ensures forall i :: 0 <= i < |m| ==> ws[i] == m[i].word
  {
    seq(|m|, i requires 0 <= i < |m| => m[i].word)
  }

  /**
   `wordCounts[w] = (wordCounts[w] || 0) + 1`: a key already present is updated
   where it stands, a new key goes at the end with count 1.
   */
  function Bump(m: seq<KeywordCount>, w: string): (r: seq<KeywordCount>)
    ensures forall x :: x in Words(r) <==> x in Words(m) || x == w
    ensures |r| == if w in Words(m) then |m| else |m| + 1
  {
    if w in Words(m) then
      var p := FirstIdx(w, Words(m));
      var r := m[p := KeywordCount(w, m[p].count + 1)];
      assert Words(r) == Words(m);
      r
    else
      var r := m + [KeywordCount(w, 1)];
      assert Words(r) == Words(m) + [w];
      r
  }

  /** The count map after counting every word of `ts` in order. */
  function Tally(ts: seq<string>): (r: seq<KeywordCount>)
    ensures forall w :: w in Words(r) <==> w in ts
    ensures |r| <= |ts|
  {
    if ts == [] then [] else Bump(Tally(ts[..|ts| - 1]), ts[|ts| - 1])
  }

  /** The words of `m` appear in `m` in order of their first occurrence in `ts`. */
  predicate FirstSeenOrder(m: seq<KeywordCount>, ts: seq<string>) {
    forall i, j :: 0 <= i < j < |m| ==> FirstIdx(m[i].word, ts) < FirstIdx(m[j].word, ts)
  }

  /** `m` is the count map of `ts`: its words, their counts, their order. */
  ghost predicate TallyOf(m: seq<KeywordCount>, ts: seq<string>) {
    && (forall w :: w in Words(m) <==> w in ts)
    && (forall i :: 0 <= i < |m| ==> m[i].count == multiset(ts)[m[i].word])
    && FirstSeenOrder(m, ts)
  }

  lemma TallyOfDistinct(m: seq<KeywordCount>, ts: seq<string>)
    requires TallyOf(m, ts)
    ensures forall i, j :: 0 <= i < j < |m| ==> m[i].word != m[j].word
  {
    forall i, j | 0 <= i < j < |m|
      ensures m[i].word != m[j].word
    {
      assert FirstIdx(m[i].word, ts) < FirstIdx(m[j].word, ts);
    }
  }

  /** Appending a word keeps the first occurrence of every word seen before. */
  lemma FirstSeenAppend(m: seq<KeywordCount>, s: seq<string>, x: string)
    requires forall i :: 0 <= i < |m| ==> m[i].word in s
    ensures forall i :: 0 <= i < |m| ==> FirstIdx(m[i].word, s + [x]) == FirstIdx(m[i].word, s) < |s|
  {
    forall i | 0 <= i < |m|
      ensures FirstIdx(m[i].word, s + [x]) == FirstIdx(m[i].word, s) < |s|
    {
      FirstIdxAppend(m[i].word, s, [x]);
    }
  }

  lemma UpdateSeenCounts(m: seq<KeywordCount>, s: seq<string>, x: string, p: nat)
    requires forall i :: 0 <= i < |m| ==> m[i].count == multiset(s)[m[i].word]
    requires forall i, j :: 0 <= i < j < |m| ==> m[i].word != m[j].word
    requires p < |m| && m[p].word == x
    ensures var r := m[p := KeywordCount(x, m[p].count + 1)];
      forall i :: 0 <= i < |r| ==> r[i].count == multiset(s + [x])[r[i].word]
  {
    var r := m[p := KeywordCount(x, m[p].count + 1)];
    assert multiset(s + [x]) == multiset(s) + multiset{x};
    forall i | 0 <= i < |r|
      ensures r[i].count == multiset(s + [x])[r[i].word]
    {
      if i != p {
        assert m[i].word != m[p].word by {
          if i < p { assert m[i].word != m[p].word; } else { assert m[p].word != m[i].word; }
        }
      }
    }
  }

  lemma UpdateSeenOrder(m: seq<KeywordCount>, s: seq<string>, x: string, p: nat)
    requires FirstSeenOrder(m, s)
    requires forall i :: 0 <= i < |m| ==> m[i].word in s
    requires p < |m| && m[p].word == x
    ensures FirstSeenOrder(m[p := KeywordCount(x, m[p].count + 1)], s + [x])
  {
    var r := m[p := KeywordCount(x, m[p].count + 1)];
    FirstSeenAppend(m, s, x);
    assert forall i :: 0 <= i < |r| ==> r[i].word == m[i].word;
  }

  lemma BumpSeen(m: seq<KeywordCount>, s: seq<string>, x: string)
    requires TallyOf(m, s) && x in Words(m)
    ensures TallyOf(Bump(m, x), s + [x])
  {
    TallyOfDistinct(m, s);
    var p := FirstIdx(x, Words(m));
    var r := Bump(m, x);
    assert r == m[p := KeywordCount(x, m[p].count + 1)];
    assert Words(r) == Words(m);
    forall i | 0 <= i < |m|
      ensures m[i].word in s
    {
      assert Words(m)[i] == m[i].word;
    }
    UpdateSeenCounts(m, s, x, p);
    UpdateSeenOrder(m, s, x, p);
  }

  lemma AppendNewCounts(m: seq<KeywordCount>, s: seq<string>, x: string)
    requires forall i :: 0 <= i < |m| ==> m[i].count == multiset(s)[m[i].word]
    requires forall i :: 0 <= i < |m| ==> m[i].word != x
    requires x !in s
    ensures var r := m + [KeywordCount(x, 1)];
      forall i :: 0 <= i < |r| ==> r[i].count == multiset(s + [x])[r[i].word]
  {
    var r := m + [KeywordCount(x, 1)];
    assert multiset(s + [x]) == multiset(s) + multiset{x};
    forall i | 0 <= i < |r|
      ensures r[i].count == multiset(s + [x])[r[i].word]
    {
      if i < |m| {
        assert r[i] == m[i];
      } else {
        assert multiset(s)[x] == 0;
      }
    }
  }

  lemma AppendNewOrder(m: seq<KeywordCount>, s: seq<string>, x: string)
    requires FirstSeenOrder(m, s)
    requires forall i :: 0 <= i < |m| ==> m[i].word in s
    requires x !in s
    ensures FirstSeenOrder(m + [KeywordCount(x, 1)], s + [x])
  {
    var ts := s + [x];
    var r := m + [KeywordCount(x, 1)];
    assert FirstIdx(x, ts) == |s| by {
      assert ts[|s|] == x;
    }
    FirstSeenAppend(m, s, x);
    forall i, j | 0 <= i < j < |r|
      ensures FirstIdx(r[i].word, ts) < FirstIdx(r[j].word, ts)
    {
      assert r[i] == m[i];
      if j < |m| {
        assert r[j] == m[j];
      }
    }
  }

  lemma BumpNew(m: seq<KeywordCount>, s: seq<string>, x: string)
    requires TallyOf(m, s) && x !in Words(m)
    ensures TallyOf(Bump(m, x), s + [x])
  {
    var r := Bump(m, x);
    assert r == m + [KeywordCount(x, 1)];
    assert x !in s;
    forall i | 0 <= i < |m|
      ensures m[i].word in s && m[i].word != x
    {
      assert Words(m)[i] == m[i].word;
    }
    AppendNewCounts(m, s, x);
    AppendNewOrder(m, s, x);
    assert Words(r) == Words(m) + [x];
  }

  /**
   The count map holds each word of `ts` once, with its number of occurrences,
   in order of first occurrence.
   */
  lemma {:induction false} TallySpec(ts: seq<string>)
    ensures TallyOf(Tally(ts), ts)
  {
    if ts != [] {
      var s, x := ts[..|ts| - 1], ts[|ts| - 1];
      assert ts == s + [x];
      TallySpec(s);
      if x in Words(Tally(s)) {
        BumpSeen(Tally(s), s, x);
      } else {
        BumpNew(Tally(s), s, x);
      }
    }
  }

  /* ---------- The stable sort ---------- */

  predicate NonIncreasing(s: seq<KeywordCount>) {
    forall i, j :: 0 <= i < j < |s| ==> s[i].count >= s[j].count
  }

  /** Insertion of `x` after every entry whose count is at least its own. */
  function Insert(s: seq<KeywordCount>, x: KeywordCount): (r: seq<KeywordCount>)
    ensures multiset(r) == multiset(s) + multiset{x}
  {
    if s == [] || s[0].count < x.count then [x] + s
    else
      assert s == [s[0]] + s[1..];
      [s[0]] + Insert(s[1..], x)
  }

  /**
   `.sort(([, a], [, b]) => b - a)`: JavaScript's sort is stable, so the result is
   the entries by descending count with ties in map order.
   */
  function Sort(m: seq<KeywordCount>): (r: seq<KeywordCount>)
    ensures multiset(r) == multiset(m)
  {
    if m == [] then []
    else
      assert m == m[..|m| - 1] + [m[|m| - 1]];
      Insert(Sort(m[..|m| - 1]), m[|m| - 1])
  }

  /** `a` comes before `b`: a larger count, or the same count and an earlier first occurrence. */
  predicate Before(a: KeywordCount, b: KeywordCount, ts: seq<string>) {
    a.count > b.count || (a.count == b.count && FirstIdx(a.word, ts) < FirstIdx(b.word, ts))
  }

  predicate RankedBy(s: seq<KeywordCount>, ts: seq<string>) {
    forall i, j :: 0 <= i < j < |s| ==> Before(s[i], s[j], ts)
  }

  /** Every entry of an insertion comes from the list or is the inserted entry. */
  lemma InsertFrom(s: seq<KeywordCount>, x: KeywordCount, e: KeywordCount)
    requires e in Insert(s, x)
    ensures e in s || e == x
  {
    assert e in multiset(Insert(s, x));
  }

  /** An entry ranking before all of `t` and before `x` ranks before all of their insertion. */
  lemma HeadBeforeInsert(h: KeywordCount, t: seq<KeywordCount>, x: KeywordCount, ts: seq<string>)
    requires forall e :: e in t ==> Before(h, e, ts)
    requires Before(h, x, ts)
    ensures forall e :: e in Insert(t, x) ==> Before(h, e, ts)
  {
    forall e | e in Insert(t, x)
      ensures Before(h, e, ts)
    {
      InsertFrom(t, x, e);
    }
  }

  /** A ranked list stays ranked behind an entry that ranks before all of it. */
  lemma RankedCons(h: KeywordCount, t: seq<KeywordCount>, ts: seq<string>)
    requires RankedBy(t, ts)
    requires forall e :: e in t ==> Before(h, e, ts)
    ensures RankedBy([h] + t, ts)
  {
    var r := [h] + t;
    forall i, k | 0 <= i < k < |r|
      ensures Before(r[i], r[k], ts)
    {
      if i > 0 {
        assert r[i] == t[i - 1] && r[k] == t[k - 1];
      } else {
        assert r[k] in t;
      }
    }
  }

  /** The head of a ranked list ranks before everything after it. */
  lemma RankedHead(s: seq<KeywordCount>, ts: seq<string>)
    requires RankedBy(s, ts) && s != []
    ensures RankedBy(s[1..], ts)
    ensures forall e :: e in s[1..] ==> Before(s[0], e, ts)
  {
    forall e | e in s[1..]
      ensures Before(s[0], e, ts)
    {
      var j :| 0 <= j < |s| - 1 && s[1..][j] == e;
      assert s[j + 1] == e;
    }
  }

  lemma {:induction false} InsertRanked(s: seq<KeywordCount>, x: KeywordCount, ts: seq<string>)
    requires RankedBy(s, ts)
    requires forall e :: e in s ==> FirstIdx(e.word, ts) < FirstIdx(x.word, ts)
    ensures RankedBy(Insert(s, x), ts)
  {
    if s == [] {
    } else if s[0].count >= x.count {
      var t := s[1..];
      RankedHead(s, ts);
      assert forall e :: e in t ==> e in s;
      InsertRanked(t, x, ts);
      HeadBeforeInsert(s[0], t, x, ts);
      RankedCons(s[0], Insert(t, x), ts);
    } else {
      RankedHead(s, ts);
      forall e | e in s
        ensures Before(x, e, ts)
      {
        if e != s[0] {
          assert e in s[1..];
        }
      }
      RankedCons(x, s, ts);
    }
  }

  /** Sorting an insertion-ordered map ranks it by count, then by first occurrence. */
  lemma {:induction false} SortRanked(m: seq<KeywordCount>, ts: seq<string>)
    requires FirstSeenOrder(m, ts)
    ensures RankedBy(Sort(m), ts)
  {
    if m != [] {
      var init, x := m[..|m| - 1], m[|m| - 1];
      SortRanked(init, ts);
      forall e | e in Sort(init)
        ensures FirstIdx(e.word, ts) < FirstIdx(x.word, ts)
      {
        assert e in multiset(Sort(init));
        var j :| 0 <= j < |init| && init[j] == e;
      }
      InsertRanked(Sort(init), x, ts);
    }
  }

  /* ---------- The top five ---------- */

  /** `.slice(0, 5)`. */
  function Top(s: seq<KeywordCount>): (r: seq<KeywordCount>)
    ensures |r| == if |s| < TopLimit then |s| else TopLimit
    ensures r <= s
  {
    if |s| <= TopLimit then s else s[..TopLimit]
  }

  /** `findTopKeywords`. */
  function FindTopKeywords(videos: seq<Video>): (r: seq<KeywordCount>)
    ensures |r| <= TopLimit
  {
    Top(Sort(Tally(KeptTokens(videos))))
  }

  lemma {:induction false} KeptCounts(ts: seq<string>, w: string)
    requires Keep(w)
    ensures multiset(Kept(ts))[w] == multiset(ts)[w]
  {
    if ts != [] {
      var init, x := ts[..|ts| - 1], ts[|ts| - 1];
      KeptCounts(init, w);
      LastSplit(ts);
      var tail := if Keep(x) then [x] else [];
      assert Kept(ts) == Kept(init) + tail;
      MultisetAppend(Kept(init), tail);
      assert multiset(tail)[w] == if x == w then 1 else 0;
    }
  }

  lemma MultisetAppend(a: seq<string>, b: seq<string>)
    ensures multiset(a + b) == multiset(a) + multiset(b)
  {
  }

  lemma PermutedWords(s: seq<KeywordCount>, m: seq<KeywordCount>, w: string)
    requires multiset(s) == multiset(m)
    requires w in Words(s)
    ensures w in Words(m)
  {
    var i :| 0 <= i < |s| && Words(s)[i] == w;
    assert s[i] in multiset(m);
    var j :| 0 <= j < |m| && m[j] == s[i];
    assert Words(m)[j] == w;
  }

  lemma PermutedCounts(s: seq<KeywordCount>, m: seq<KeywordCount>, ts: seq<string>)
    requires multiset(s) == multiset(m)
    requires forall j :: 0 <= j < |m| ==> m[j].count == multiset(ts)[m[j].word]
    ensures forall i :: 0 <= i < |s| ==> s[i].count == multiset(ts)[s[i].word]
  {
    forall i | 0 <= i < |s|
      ensures s[i].count == multiset(ts)[s[i].word]
    {
      assert s[i] in multiset(m);
      var j :| 0 <= j < |m| && m[j] == s[i];
    }
  }

  /** The facts about the sorted count map that the result lemmas read off. */
  lemma SortedTally(videos: seq<Video>)
    ensures var ts := KeptTokens(videos);
      var s := Sort(Tally(ts));
      && RankedBy(s, ts)
      && (forall w :: w in Words(s) <==> w in ts)
      && (forall i :: 0 <= i < |s| ==> s[i].count == multiset(ts)[s[i].word])
  {
    var ts := KeptTokens(videos);
    var m := Tally(ts);
    TallySpec(ts);
    SortRanked(m, ts);
    var s := Sort(m);
    forall w
      ensures w in Words(s) <==> w in Words(m)
    {
      if w in Words(s) {
        PermutedWords(s, m, w);
      }
      if w in Words(m) {
        PermutedWords(m, s, w);
      }
    }
    PermutedCounts(s, m, ts);
  }

  /** The first five of a ranked list have counts that never increase. */
  lemma TopNonIncreasing(s: seq<KeywordCount>, ts: seq<string>)
    requires RankedBy(s, ts)
    ensures NonIncreasing(Top(s))
  {
    var r := Top(s);
    forall i, j | 0 <= i < j < |r|
      ensures r[i].count >= r[j].count
    {
      assert r[i] == s[i] && r[j] == s[j];
      assert Before(s[i], s[j], ts);
    }
  }

  /** At most five entries, with counts that never increase. */
  lemma TopKeywordsBounded(videos: seq<Video>)
    ensures |FindTopKeywords(videos)| <= TopLimit
    ensures NonIncreasing(FindTopKeywords(videos))
  {
    var ts := KeptTokens(videos);
    TallySpec(ts);
    SortRanked(Tally(ts), ts);
    TopNonIncreasing(Sort(Tally(ts)), ts);
  }

  /** Every returned word passes all four filter conditions. */
  lemma TopKeywordsQualify(videos: seq<Video>)
    ensures forall e :: e in FindTopKeywords(videos) ==>
      && |e.word| > MaxShortLength
      && (forall i :: 0 <= i < |e.word| ==> IsWordChar(e.word[i]))
      && e.word !in StopWords
      && !IsNumeric(e.word)
  {
    SortedTally(videos);
    var ts := KeptTokens(videos);
    var s := Sort(Tally(ts));
    forall e | e in FindTopKeywords(videos)
      ensures e.word in ts
    {
      var i :| 0 <= i < |s| && s[i] == e;
      assert Words(s)[i] == e.word;
    }
    CleanedWordsClean(videos);
  }

  lemma CleanAllClean(ts: seq<string>)
    ensures forall w :: w in CleanAll(ts) ==> forall i :: 0 <= i < |w| ==> IsWordChar(w[i])
  {
    if ts != [] {
      CleanAllClean(ts[..|ts| - 1]);
    }
  }

  /** Every cleaned word holds only `[a-z0-9]`. */
  lemma {:induction false} CleanedWordsClean(videos: seq<Video>)
    ensures forall w :: w in CleanedTokens(videos) ==> forall i :: 0 <= i < |w| ==> IsWordChar(w[i])
  {
    if videos != [] {
      CleanedWordsClean(videos[..|videos| - 1]);
    }
  }

  /** Each returned count is the number of cleaned words equal to it across all videos. */
  lemma TopKeywordsCounts(videos: seq<Video>)
    ensures forall e :: e in FindTopKeywords(videos) ==>
      && e.word in KeptTokens(videos)
      && e.count == multiset(CleanedTokens(videos))[e.word] >= 1
  {
    SortedTally(videos);
    var ts := KeptTokens(videos);
    var s := Sort(Tally(ts));
    forall e | e in FindTopKeywords(videos)
      ensures e.word in ts && e.count == multiset(CleanedTokens(videos))[e.word] >= 1
    {
      var i :| 0 <= i < |s| && s[i] == e;
      assert Words(s)[i] == e.word;
      assert e.word in ts;
      assert multiset(ts)[e.word] >= 1;
      KeptCounts(CleanedTokens(videos), e.word);
    }
  }

  /** Returned words are distinct; equal counts appear in order of first occurrence. */
  lemma TopKeywordsOrder(videos: seq<Video>)
    ensures var r := FindTopKeywords(videos);
      forall i, j :: 0 <= i < j < |r| ==>
        && r[i].word != r[j].word
        && (r[i].count == r[j].count ==>
              FirstIdx(r[i].word, CleanedTokens(videos)) < FirstIdx(r[j].word, CleanedTokens(videos)))
  {
    SortedTally(videos);
    var ts := KeptTokens(videos);
    var s := Sort(Tally(ts));
    forall i, j | 0 <= i < j < |FindTopKeywords(videos)|
      ensures s[i].word != s[j].word
      ensures s[i].count == s[j].count ==>
        FirstIdx(s[i].word, CleanedTokens(videos)) < FirstIdx(s[j].word, CleanedTokens(videos))
    {
      assert Before(s[i], s[j], ts);
      assert Words(s)[i] == s[i].word && Words(s)[j] == s[j].word;
      KeptFirstOrder(CleanedTokens(videos), s[i].word, s[j].word);
    }
  }

  /**
   A listed word cut off by the first five means five were kept, the last of
   which ranks before it.
   */
  lemma TopCutOff(s: seq<KeywordCount>, ts: seq<string>, j: nat)
    requires RankedBy(s, ts)
    requires j < |s| && s[j].word !in Words(Top(s))
    ensures |Top(s)| == TopLimit && Before(Top(s)[TopLimit - 1], s[j], ts)
  {
    if j < TopLimit {
      assert false;
    }
    assert Top(s)[TopLimit - 1] == s[TopLimit - 1];
    assert Before(s[TopLimit - 1], s[j], ts);
  }

  /**
   Nothing better is left out: a counted word that is not returned means five
   words were returned, each ranking before it.
   */
  lemma TopKeywordsComplete(videos: seq<Video>)
    ensures var r := FindTopKeywords(videos);
      var ts := KeptTokens(videos);
      forall w :: w in ts && w !in Words(r) ==>
        && |r| == TopLimit
        && Before(r[TopLimit - 1], KeywordCount(w, multiset(ts)[w]), ts)
  {
    SortedTally(videos);
    var ts := KeptTokens(videos);
    var s := Sort(Tally(ts));
    forall w | w in ts && w !in Words(Top(s))
      ensures |Top(s)| == TopLimit && Before(Top(s)[TopLimit - 1], KeywordCount(w, multiset(ts)[w]), ts)
    {
      var j :| 0 <= j < |s| && s[j].word == w;
      assert s[j] == KeywordCount(w, multiset(ts)[w]);
      TopCutOff(s, ts, j);
    }
  }

  /** No counted word, in particular no video at all, gives an empty result, and only then. */
  lemma TopKeywordsEmpty(videos: seq<Video>)
    ensures videos == [] ==> FindTopKeywords(videos) == []
    ensures FindTopKeywords(videos) == [] <==> KeptTokens(videos) == []
  {
    SortedTally(videos);
    var ts := KeptTokens(videos);
    var s := Sort(Tally(ts));
    if ts != [] {
      assert ts[0] in Words(s);
    }
  }
}

=== FILE: scheduler.dfy ===
/**
 The weekly schedule packer (`calculateSchedule`).

 Videos longer than the largest daily budget are dropped; the rest are packed,
 in input order, next-fit into days of a seven-slot weekly budget. The packer
 is modelled as a step function over an explicit cursor: `Pass` is one run of
 the body of the inner `while (true)` loop, `Place` repeats it until the video
 is placed, and `PlaceAll` is the outer `for` loop.
 */
module Scheduler {
  import opened Videos
  import opened Seqs

  /** `weeklyAvailability.length`: the pattern has one budget per weekday. */
  const DaysPerWeek := 7

  /** How the budget of the day the cursor moves onto is read. */
  datatype BudgetRule =
    | ZeroFallsBack  // as written: `weeklyAvailability[currentDay] || weeklyAvailability[0]`
    | ZeroMeansRest  // a day whose budget is 0 keeps budget 0

  /** The availability vector the form produces: seven non-negative minute counts. */
  predicate ValidWeek(wa: seq<int>) {
    |wa| == DaysPerWeek && forall i :: 0 <= i < |wa| ==> wa[i] >= 0
  }

  datatype Entry = Entry(day: int, videos: seq<Video>)

  datatype ScheduleResult = ScheduleResult(
    schedule: seq<Entry>,
    totalDays: int,
    totalWeeks: int,
    unwatchableVideos: int)

  /** The loop state: `currentDay`, `remainingTimeToday`, `currentDayVideos` and `schedule`. */
  datatype Cursor = Cursor(day: int, remaining: int, dayVideos: seq<Video>, emitted: seq<Entry>)

  /* ---------- Budgets ---------- */

  /** An index of a largest budget. */
  function ArgMax(s: seq<int>): (k: nat)
    requires |s| > 0
    ensures k < |s|
    ensures forall i :: 0 <= i < |s| ==> s[i] <= s[k]
  {
    if |s| == 1 then 0
    else
      var k := ArgMax(s[..|s| - 1]);
      if s[|s| - 1] > s[k] then |s| - 1 else k
  }

  /** `Math.max(...weeklyAvailability)`. */
  function MaxDaily(wa: seq<int>): (m: int)
    requires |wa| > 0
    ensures forall i :: 0 <= i < |wa| ==> wa[i] <= m
  {
    wa[ArgMax(wa)]
  }

  /** The maximum is one of the week's entries. */
  lemma MaxDailyAttained(wa: seq<int>)
    requires |wa| > 0
    ensures MaxDaily(wa) in wa
  {
    assert wa[ArgMax(wa)] == MaxDaily(wa);
  }

  /**
   The budget the cursor gets on arriving at day `d`. Under the rule as written a
   budget of 0 and the missing index 7 both read as `wa[0]`.
   */
  function Budget(rule: BudgetRule, wa: seq<int>, d: int): (b: int)
    requires |wa| == DaysPerWeek
    ensures ValidWeek(wa) ==> 0 <= b
    ensures 0 <= d < DaysPerWeek && wa[d] != 0 ==> b == wa[d]
    ensures rule == ZeroMeansRest && 0 <= d < DaysPerWeek ==> b == wa[d]
    ensures rule == ZeroFallsBack && 0 <= d < DaysPerWeek && wa[d] == 0 ==> b == wa[0]
    ensures !(0 <= d < DaysPerWeek) ==> b == wa[0]
  {
    if 0 <= d < DaysPerWeek && (wa[d] != 0 || rule == ZeroMeansRest) then wa[d] else wa[0]
  }

  /** The day holding the largest budget gets exactly that budget under either rule. */
  lemma PeakBudget(rule: BudgetRule, wa: seq<int>)
    requires ValidWeek(wa)
    ensures Budget(rule, wa, ArgMax(wa)) == MaxDaily(wa)
  {
    var k := ArgMax(wa);
    assert wa[0] <= wa[k];
  }

  /* ---------- Sums and the validity filter ---------- */

  /** Total minutes of a list of videos. */
  function Total(vs: seq<Video>): int {
    if vs == [] then 0 else Total(vs[..|vs| - 1]) + vs[|vs| - 1].duration
  }

  /** All videos of a list of entries, in emission order. */
  function Flatten(es: seq<Entry>): seq<Video> {
    if es == [] then [] else Flatten(es[..|es| - 1]) + es[|es| - 1].videos
  }

  /** The number of videos longer than `maxDaily`. */
  function Unwatchable(videos: seq<Video>, maxDaily: int): nat {
    if videos == [] then 0
    else Unwatchable(videos[..|videos| - 1], maxDaily) + (if videos[|videos| - 1].duration > maxDaily then 1 else 0)
  }

  /** `a` is `b` with some elements left out: a subsequence, in `b`'s order. */
  predicate SubsequenceOf(a: seq<Video>, b: seq<Video>)
    decreases |b|
  {
    if b == [] then a == []
    else
      || (a != [] && a[|a| - 1] == b[|b| - 1] && SubsequenceOf(a[..|a| - 1], b[..|b| - 1]))
      || SubsequenceOf(a, b[..|b| - 1])
  }

  /**
   `videos.filter(video => video.duration <= maxDailyTime)`: the videos that fit the
   largest budget, each as often as in the input, in input order.
   */
  function ValidVideos(videos: seq<Video>, maxDaily: int): (r: seq<Video>)
    ensures forall i :: 0 <= i < |r| ==> r[i].duration <= maxDaily
    ensures forall v :: v in r <==> v in videos && v.duration <= maxDaily
    ensures |r| + Unwatchable(videos, maxDaily) == |videos|
  {
    if videos == [] then []
    else
      var last := videos[|videos| - 1];
      ValidVideos(videos[..|videos| - 1], maxDaily) + (if last.duration <= maxDaily then [last] else [])
  }

  /** The filter keeps each valid video exactly as often as the input holds it, and drops every other one. */
  lemma {:induction false} ValidVideosCounts(videos: seq<Video>, maxDaily: int)
    ensures forall v :: multiset(ValidVideos(videos, maxDaily))[v] ==
                       (if v.duration <= maxDaily then multiset(videos)[v] else 0)
  {
    if videos != [] {
      var init := videos[..|videos| - 1];
      var last := videos[|videos| - 1];
      ValidVideosCounts(init, maxDaily);
      assert videos == init + [last];
      assert multiset(videos) == multiset(init) + multiset{last};
    }
  }

  /** The filter keeps input order: its result is a subsequence of the input. */
  lemma {:induction false} ValidVideosOrder(videos: seq<Video>, maxDaily: int)
    ensures SubsequenceOf(ValidVideos(videos, maxDaily), videos)
  {
    if videos != [] {
      var init := videos[..|videos| - 1];
      var last := videos[|videos| - 1];
      var r0 := ValidVideos(init, maxDaily);
      ValidVideosOrder(init, maxDaily);
      var r := ValidVideos(videos, maxDaily);
      if last.duration <= maxDaily {
        assert r == r0 + [last];
        assert r[..|r| - 1] == r0 && r[|r| - 1] == last;
      } else {
        assert r == r0;
      }
    }
  }

  /** `Math.ceil(days / 7)` for a whole number of days. */
  function WeeksFor(days: nat): (weeks: nat)
    ensures DaysPerWeek * weeks >= days
    ensures DaysPerWeek * weeks < days + DaysPerWeek
  {
    (days + DaysPerWeek - 1) / DaysPerWeek
  }

  /* ---------- The cursor steps ---------- */

  /** The state before the first video. */
  function Start(wa: seq<int>): (r: Cursor)
    requires |wa| == DaysPerWeek
    ensures r.day == 0 && r.remaining == wa[0]
    ensures Placed(r) == [] && Flush(r) == []
  {
    Cursor(0, wa[0], [], [])
  }

  /** The schedule after pushing the current day, if it holds any video. */
  function Flush(c: Cursor): (r: seq<Entry>)
    ensures c.emitted <= r
    ensures Flatten(r) == Placed(c)
  {
    if |c.dayVideos| > 0 then
      FlattenAppend(c.emitted, Entry(c.day, c.dayVideos));
      c.emitted + [Entry(c.day, c.dayVideos)]
    else c.emitted
  }

  /** The videos a cursor has placed so far: the emitted entries, then the current day. */
  function Placed(c: Cursor): seq<Video> {
    Flatten(c.emitted) + c.dayVideos
  }

  /** The week wrap-around check at the top of the loop body. */
  function Wrap(wa: seq<int>, c: Cursor): (r: Cursor)
    requires |wa| == DaysPerWeek
    ensures c.day >= DaysPerWeek ==> r.day == 0 && r.remaining == wa[0] && r.dayVideos == []
    ensures c.day < DaysPerWeek ==> r == c
    ensures c.emitted <= r.emitted
  {
    if c.day >= DaysPerWeek then Cursor(0, wa[0], [], Flush(c)) else c
  }

  /** The video fits today: add it and spend its minutes. */
  function Accept(c: Cursor, v: Video): (r: Cursor)
    ensures r.day == c.day && r.emitted == c.emitted
    ensures Total(r.dayVideos) + r.remaining == Total(c.dayVideos) + c.remaining
    ensures Total(r.dayVideos) == Total(c.dayVideos) + v.duration
    ensures |r.dayVideos| > 0 && r.dayVideos[|r.dayVideos| - 1] == v
  {
    TotalAppend(c.dayVideos, v);
    c.(dayVideos := c.dayVideos + [v], remaining := c.remaining - v.duration)
  }

  /** The video does not fit: close today and move to the next day's budget. */
  function Advance(rule: BudgetRule, wa: seq<int>, c: Cursor): (r: Cursor)
    requires |wa| == DaysPerWeek
    ensures r.day == c.day + 1 && r.dayVideos == [] && r.remaining == Budget(rule, wa, r.day)
    ensures c.emitted <= r.emitted
  {
    Cursor(c.day + 1, Budget(rule, wa, c.day + 1), [], Flush(c))
  }

  /** One run of the loop body: the new cursor, and whether the video was placed (`break`). */
  function Pass(rule: BudgetRule, wa: seq<int>, c: Cursor, v: Video): (r: (Cursor, bool))
    requires |wa| == DaysPerWeek
    ensures r.1 <==> v.duration <= Wrap(wa, c).remaining
  {
    var w := Wrap(wa, c);
    if v.duration <= w.remaining then (Accept(w, v), true) else (Advance(rule, wa, w), false)
  }

  /** Day advances needed to go from day `d` to the peak day `k`, at least one. */
  function Gap(d: int, k: int): int {
    if d < k then k - d else k - d + DaysPerWeek
  }

  /** Termination measure of the inner loop: 0 when the next pass places the video. */
  function PassesLeft(rule: BudgetRule, wa: seq<int>, c: Cursor, v: Video): nat
    requires ValidWeek(wa) && c.day >= 0
  {
    var w := Wrap(wa, c);
    if v.duration <= w.remaining then 0 else Gap(w.day, ArgMax(wa))
  }

  lemma PassesLeftDecreases(rule: BudgetRule, wa: seq<int>, c: Cursor, v: Video)
    requires ValidWeek(wa) && c.day >= 0 && v.duration <= MaxDaily(wa)
    requires !Pass(rule, wa, c, v).1
    ensures Pass(rule, wa, c, v).0.day >= 0
    ensures PassesLeft(rule, wa, Pass(rule, wa, c, v).0, v) < PassesLeft(rule, wa, c, v)
  {
    PeakBudget(rule, wa);
    var w := Wrap(wa, c);
    var w2 := Wrap(wa, Pass(rule, wa, c, v).0);
    assert w2.remaining == Budget(rule, wa, w2.day);
    if w2.day == ArgMax(wa) {
      assert v.duration <= w2.remaining;
    }
  }

  /** The inner `while (true)` loop: passes until `v` is placed. */
  function Place(rule: BudgetRule, wa: seq<int>, c: Cursor, v: Video): (r: Cursor)
    requires ValidWeek(wa) && c.day >= 0 && v.duration <= MaxDaily(wa)
    ensures 0 <= r.day < DaysPerWeek
    ensures |r.dayVideos| > 0 && r.dayVideos[|r.dayVideos| - 1] == v
    ensures c.emitted <= r.emitted
    decreases PassesLeft(rule, wa, c, v)
  {
    var w := Wrap(wa, c);
    if v.duration <= w.remaining then Accept(w, v)
    else
      PassesLeftDecreases(rule, wa, c, v);
      Place(rule, wa, Advance(rule, wa, w), v)
  }

  /** How many runs of the loop body `Place` makes. */
  function Passes(rule: BudgetRule, wa: seq<int>, c: Cursor, v: Video): nat
    requires ValidWeek(wa) && c.day >= 0 && v.duration <= MaxDaily(wa)
    decreases PassesLeft(rule, wa, c, v)
  {
    var (next, placed) := Pass(rule, wa, c, v);
    if placed then 1
    else
      PassesLeftDecreases(rule, wa, c, v);
      1 + Passes(rule, wa, next, v)
  }

  /** The outer `for (const video of validVideos)` loop. */
  function PlaceAll(rule: BudgetRule, wa: seq<int>, c: Cursor, vs: seq<Video>): (r: Cursor)
    requires ValidWeek(wa) && c.day >= 0
    requires forall i :: 0 <= i < |vs| ==> vs[i].duration <= MaxDaily(wa)
    ensures r.day >= 0 && c.emitted <= r.emitted
    ensures vs != [] ==> r.day < DaysPerWeek
    decreases |vs|
  {
    if vs == [] then c
    else PlaceAll(rule, wa, Place(rule, wa, c, vs[0]), vs[1..])
  }

  /** `calculateSchedule` under a budget rule. */
  function ScheduleWith(rule: BudgetRule, videos: seq<Video>, wa: seq<int>): (r: ScheduleResult)
    requires ValidWeek(wa)
    ensures r.unwatchableVideos == Unwatchable(videos, MaxDaily(wa))
    ensures r.totalDays == |r.schedule|
    ensures DaysPerWeek * r.totalWeeks >= r.totalDays > DaysPerWeek * (r.totalWeeks - 1)
  {
    var valid := ValidVideos(videos, MaxDaily(wa));
    var last := PlaceAll(rule, wa, Start(wa), valid);
    var schedule := Flush(last);
    ScheduleResult(schedule, |schedule|, WeeksFor(|schedule|), |videos| - |valid|)
  }

  /**
   `calculateSchedule` as written: the valid videos in order, cut into non-empty
   next-fit days on weekdays 0..6, none over its budget, with the summary counts.
   */
  function CalculateSchedule(videos: seq<Video>, wa: seq<int>): (r: ScheduleResult)
    requires ValidWeek(wa)
    ensures Flatten(r.schedule) == ValidVideos(videos, MaxDaily(wa))
    ensures forall i :: 0 <= i < |r.schedule| ==> Fitting(ZeroFallsBack, wa, r.schedule[i])
    ensures NextFit(ZeroFallsBack, wa, r.schedule)
    ensures Landed(ZeroFallsBack, wa, r.schedule)
    ensures r.unwatchableVideos == Unwatchable(videos, MaxDaily(wa))
    ensures r.unwatchableVideos + |Flatten(r.schedule)| == |videos|
    ensures r.totalDays == |r.schedule|
    ensures DaysPerWeek * r.totalWeeks >= r.totalDays > DaysPerWeek * (r.totalWeeks - 1)
  {
    ScheduleInvariant(ZeroFallsBack, videos, wa);
    ScheduleLands(ZeroFallsBack, videos, wa);
    ScheduleWith(ZeroFallsBack, videos, wa)
  }

  /* ---------- Invariants ---------- */

  /** An emitted entry: non-empty, on a weekday, within that day's budget. */
  predicate Fitting(rule: BudgetRule, wa: seq<int>, e: Entry)
    requires |wa| == DaysPerWeek
  {
    |e.videos| > 0 && 0 <= e.day < DaysPerWeek && Total(e.videos) <= Budget(rule, wa, e.day)
  }

  /** Entry `e` was closed because `next` did not fit in what was left of its day. */
  predicate ClosedBy(rule: BudgetRule, wa: seq<int>, e: Entry, next: Video)
    requires |wa| == DaysPerWeek
  {
    Total(e.videos) + next.duration > Budget(rule, wa, e.day)
  }

  /** Entry `i` was closed by the first video of entry `i + 1`. */
  predicate ClosedAt(rule: BudgetRule, wa: seq<int>, es: seq<Entry>, i: int)
    requires |wa| == DaysPerWeek && 0 <= i < |es| - 1
  {
    |es[i + 1].videos| > 0 && ClosedBy(rule, wa, es[i], es[i + 1].videos[0])
  }

  /** Every entry but the last was closed by the first video of its successor. */
  predicate NextFit(rule: BudgetRule, wa: seq<int>, es: seq<Entry>)
    requires |wa| == DaysPerWeek
  {
    forall i :: 0 <= i < |es| - 1 ==> ClosedAt(rule, wa, es, i)
  }

  /** The part of the loop invariant shared by both loops; `done` is what has been placed. */
  predicate Holds(rule: BudgetRule, wa: seq<int>, c: Cursor, done: seq<Video>)
    requires |wa| == DaysPerWeek
  {
    && 0 <= c.remaining
    && Total(c.dayVideos) + c.remaining == Budget(rule, wa, c.day)
    && (forall i :: 0 <= i < |c.emitted| ==> Fitting(rule, wa, c.emitted[i]))
    && NextFit(rule, wa, c.emitted)
    && Placed(c) == done
  }

  /** The invariant of the outer loop: between two videos. */
  predicate Settled(rule: BudgetRule, wa: seq<int>, c: Cursor, done: seq<Video>)
    requires |wa| == DaysPerWeek
  {
    && 0 <= c.day < DaysPerWeek
    && Holds(rule, wa, c, done)
    && (|c.emitted| > 0 ==>
          |c.dayVideos| > 0 && ClosedBy(rule, wa, c.emitted[|c.emitted| - 1], c.dayVideos[0]))
  }

  /** The invariant of the inner loop while `v` waits to be placed. */
  predicate Pending(rule: BudgetRule, wa: seq<int>, c: Cursor, done: seq<Video>, v: Video)
    requires |wa| == DaysPerWeek
  {
    && 0 <= c.day <= DaysPerWeek
    && (c.day == DaysPerWeek ==> c.dayVideos == [])
    && Holds(rule, wa, c, done)
    && (|c.emitted| > 0 ==>
          if |c.dayVideos| > 0 then ClosedBy(rule, wa, c.emitted[|c.emitted| - 1], c.dayVideos[0])
          else ClosedBy(rule, wa, c.emitted[|c.emitted| - 1], v))
  }

  lemma TotalAppend(vs: seq<Video>, v: Video)
    ensures Total(vs + [v]) == Total(vs) + v.duration
  {
    assert (vs + [v])[..|vs|] == vs;
  }

  lemma FlattenAppend(es: seq<Entry>, e: Entry)
    ensures Flatten(es + [e]) == Flatten(es) + e.videos
  {
    assert (es + [e])[..|es|] == es;
  }

  /** Pushing a non-empty day keeps every entry fitting and the next-fit chain intact. */
  lemma FlushKeeps(rule: BudgetRule, wa: seq<int>, c: Cursor, done: seq<Video>)
    requires ValidWeek(wa) && 0 <= c.day < DaysPerWeek && Holds(rule, wa, c, done)
    requires |c.emitted| > 0 && |c.dayVideos| > 0 ==> ClosedBy(rule, wa, c.emitted[|c.emitted| - 1], c.dayVideos[0])
    ensures forall i :: 0 <= i < |Flush(c)| ==> Fitting(rule, wa, Flush(c)[i])
    ensures NextFit(rule, wa, Flush(c))
    ensures Flatten(Flush(c)) == done
  {
    if |c.dayVideos| > 0 {
      var e := Entry(c.day, c.dayVideos);
      assert Fitting(rule, wa, e);
      var f := Flush(c);
      forall i | 0 <= i < |f| - 1
        ensures ClosedAt(rule, wa, f, i)
      {
        if i + 1 < |c.emitted| {
          assert ClosedAt(rule, wa, c.emitted, i);
          assert f[i] == c.emitted[i] && f[i + 1] == c.emitted[i + 1];
        }
      }
    }
  }

  /** The wrap check never pushes an entry: the day counter reaches 7 only with an empty day. */
  lemma WrapFlushIsDead(rule: BudgetRule, wa: seq<int>, c: Cursor, done: seq<Video>, v: Video)
    requires ValidWeek(wa) && Pending(rule, wa, c, done, v)
    ensures Wrap(wa, c).emitted == c.emitted
    ensures Pending(rule, wa, Wrap(wa, c), done, v) && Wrap(wa, c).day < DaysPerWeek
  {
  }

  lemma AcceptKeeps(rule: BudgetRule, wa: seq<int>, w: Cursor, done: seq<Video>, v: Video)
    requires ValidWeek(wa) && Pending(rule, wa, w, done, v) && w.day < DaysPerWeek
    requires v.duration <= w.remaining
    ensures Settled(rule, wa, Accept(w, v), done + [v])
  {
    var n := Accept(w, v);
    TotalAppend(w.dayVideos, v);
    assert Flatten(n.emitted) + n.dayVideos == done + [v];
    assert n.dayVideos[0] == if |w.dayVideos| > 0 then w.dayVideos[0] else v;
  }

  lemma AdvanceKeeps(rule: BudgetRule, wa: seq<int>, w: Cursor, done: seq<Video>, v: Video)
    requires ValidWeek(wa) && Pending(rule, wa, w, done, v) && w.day < DaysPerWeek
    requires v.duration > w.remaining
    ensures Pending(rule, wa, Advance(rule, wa, w), done, v)
  {
    FlushKeeps(rule, wa, w, done);
    AdvanceHolds(rule, wa, w, done);
    AdvanceCloses(rule, wa, w, done, v);
    var n := Advance(rule, wa, w);
    assert n.emitted == Flush(w) && n.dayVideos == [] && n.day <= DaysPerWeek;
  }

  /** The next day starts empty with its full budget, after the flushed entries. */
  lemma AdvanceHolds(rule: BudgetRule, wa: seq<int>, w: Cursor, done: seq<Video>)
    requires ValidWeek(wa)
    requires forall i :: 0 <= i < |Flush(w)| ==> Fitting(rule, wa, Flush(w)[i])
    requires NextFit(rule, wa, Flush(w)) && Flatten(Flush(w)) == done
    ensures Holds(rule, wa, Advance(rule, wa, w), done)
  {
    var n := Advance(rule, wa, w);
    assert Budget(rule, wa, n.day) >= 0;
    assert Placed(n) == Flatten(Flush(w)) + [];
  }

  /** The entry closed by the advance, if any, is closed by the video that did not fit. */
  lemma AdvanceCloses(rule: BudgetRule, wa: seq<int>, w: Cursor, done: seq<Video>, v: Video)
    requires ValidWeek(wa) && Pending(rule, wa, w, done, v)
    requires v.duration > w.remaining
    ensures var f := Flush(w); |f| > 0 ==> ClosedBy(rule, wa, f[|f| - 1], v)
  {
    if |w.dayVideos| > 0 {
      var f := Flush(w);
      assert f[|f| - 1] == Entry(w.day, w.dayVideos);
    }
  }

  /** Each run of the loop body keeps the inner invariant, and a placing run reaches the outer one. */
  lemma PassKeepsInvariant(rule: BudgetRule, wa: seq<int>, c: Cursor, done: seq<Video>, v: Video)
    requires ValidWeek(wa) && Pending(rule, wa, c, done, v)
    ensures Pass(rule, wa, c, v).1 ==> Settled(rule, wa, Pass(rule, wa, c, v).0, done + [v])
    ensures !Pass(rule, wa, c, v).1 ==> Pending(rule, wa, Pass(rule, wa, c, v).0, done, v)
  {
    WrapFlushIsDead(rule, wa, c, done, v);
    var w := Wrap(wa, c);
    if v.duration <= w.remaining {
      assert Pass(rule, wa, c, v) == (Accept(w, v), true);
      AcceptKeeps(rule, wa, w, done, v);
    } else {
      assert Pass(rule, wa, c, v) == (Advance(rule, wa, w), false);
      AdvanceKeeps(rule, wa, w, done, v);
    }
  }

  /** Between two videos the inner invariant holds for whichever video comes next. */
  lemma SettledIsPending(rule: BudgetRule, wa: seq<int>, c: Cursor, done: seq<Video>, v: Video)
    requires ValidWeek(wa) && Settled(rule, wa, c, done)
    ensures Pending(rule, wa, c, done, v)
  {
  }

  lemma {:induction false} PlaceKeepsInvariant(rule: BudgetRule, wa: seq<int>, c: Cursor, done: seq<Video>, v: Video)
    requires ValidWeek(wa) && v.duration <= MaxDaily(wa) && Pending(rule, wa, c, done, v)
    ensures Settled(rule, wa, Place(rule, wa, c, v), done + [v])
    decreases PassesLeft(rule, wa, c, v)
  {
    PassKeepsInvariant(rule, wa, c, done, v);
    var (next, placed) := Pass(rule, wa, c, v);
    if !placed {
      PassesLeftDecreases(rule, wa, c, v);
      PlaceKeepsInvariant(rule, wa, next, done, v);
    }
  }

  lemma {:induction false} PlaceAllKeepsInvariant(rule: BudgetRule, wa: seq<int>, c: Cursor, done: seq<Video>, vs: seq<Video>, all: seq<Video>)
    requires ValidWeek(wa) && Settled(rule, wa, c, done) && all == done + vs
    requires forall i :: 0 <= i < |vs| ==> vs[i].duration <= MaxDaily(wa)
    ensures Settled(rule, wa, PlaceAll(rule, wa, c, vs), all)
    decreases |vs|
  {
    if vs == [] {
      assert all == done;
    } else {
      var v, rest := vs[0], vs[1..];
      SettledIsPending(rule, wa, c, done, v);
      PlaceKeepsInvariant(rule, wa, c, done, v);
      var next := Place(rule, wa, c, v);
      FirstSplit(done, vs);
      PlaceAllKeepsInvariant(rule, wa, next, done + [v], rest, all);
      assert PlaceAll(rule, wa, c, vs) == PlaceAll(rule, wa, next, rest);
    }
  }

  /** Solver hint: moving the head of `vs` onto `done` keeps the concatenation. */
  lemma FirstSplit(done: seq<Video>, vs: seq<Video>)
    requires vs != []
    ensures done + vs == (done + [vs[0]]) + vs[1..]
  {
    assert vs == [vs[0]] + vs[1..];
  }

  /** What the final flush leaves: the invariant facts about the returned schedule. */
  lemma ScheduleInvariant(rule: BudgetRule, videos: seq<Video>, wa: seq<int>)
    requires ValidWeek(wa)
    ensures var s := ScheduleWith(rule, videos, wa).schedule;
      && (forall i :: 0 <= i < |s| ==> Fitting(rule, wa, s[i]))
      && NextFit(rule, wa, s)
      && Flatten(s) == ValidVideos(videos, MaxDaily(wa))
  {
    var valid := ValidVideos(videos, MaxDaily(wa));
    var last := PlaceAll(rule, wa, Start(wa), valid);
    LoopInvariant(rule, wa, valid);
    FlushKeeps(rule, wa, last, valid);
    assert ScheduleWith(rule, videos, wa).schedule == Flush(last);
  }

  /** After the outer loop the cursor is settled with every valid video placed. */
  lemma LoopInvariant(rule: BudgetRule, wa: seq<int>, valid: seq<Video>)
    requires ValidWeek(wa)
    requires forall i :: 0 <= i < |valid| ==> valid[i].duration <= MaxDaily(wa)
    ensures Settled(rule, wa, PlaceAll(rule, wa, Start(wa), valid), valid)
  {
    assert Settled(rule, wa, Start(wa), []);
    assert [] + valid == valid;
    PlaceAllKeepsInvariant(rule, wa, Start(wa), [], valid, valid);
  }

  /* ---------- Properties of the result ---------- */

  /** Every emitted entry has at least one video. */
  lemma EntriesNonEmpty(rule: BudgetRule, videos: seq<Video>, wa: seq<int>)
    requires ValidWeek(wa)
    ensures forall e :: e in ScheduleWith(rule, videos, wa).schedule ==> |e.videos| > 0
  {
    ScheduleInvariant(rule, videos, wa);
  }

  /** Entry days stay in 0..6: they repeat across weeks rather than count up. */
  lemma DaysWithinWeek(rule: BudgetRule, videos: seq<Video>, wa: seq<int>)
    requires ValidWeek(wa)
    ensures forall e :: e in ScheduleWith(rule, videos, wa).schedule ==> 0 <= e.day < DaysPerWeek
  {
    ScheduleInvariant(rule, videos, wa);
  }

  /** No entry holds more minutes than its day's budget under the rule. */
  lemma WithinBudget(rule: BudgetRule, videos: seq<Video>, wa: seq<int>)
    requires ValidWeek(wa)
    ensures forall e :: e in ScheduleWith(rule, videos, wa).schedule ==> Total(e.videos) <= Budget(rule, wa, e.day)
  {
    ScheduleInvariant(rule, videos, wa);
  }

  /** The schedule, read in order, is exactly the valid videos in input order. */
  lemma PlacesValidVideosInOrder(rule: BudgetRule, videos: seq<Video>, wa: seq<int>)
    requires ValidWeek(wa)
    ensures Flatten(ScheduleWith(rule, videos, wa).schedule) == ValidVideos(videos, MaxDaily(wa))
    ensures forall v :: v in Flatten(ScheduleWith(rule, videos, wa).schedule) <==> v in videos && v.duration <= MaxDaily(wa)
  {
    ScheduleInvariant(rule, videos, wa);
  }

  /** A day is closed only because the next video did not fit in it. */
  lemma NextFitClosure(rule: BudgetRule, videos: seq<Video>, wa: seq<int>)
    requires ValidWeek(wa)
    ensures NextFit(rule, wa, ScheduleWith(rule, videos, wa).schedule)
  {
    ScheduleInvariant(rule, videos, wa);
  }

  /** The summary counts: unwatchable plus placed is the input size; weeks round days up. */
  lemma SummaryCounts(rule: BudgetRule, videos: seq<Video>, wa: seq<int>)
    requires ValidWeek(wa)
    ensures var r := ScheduleWith(rule, videos, wa);
      && r.unwatchableVideos == Unwatchable(videos, MaxDaily(wa))
      && r.unwatchableVideos + |Flatten(r.schedule)| == |videos|
      && r.totalDays == |r.schedule|
      && DaysPerWeek * r.totalWeeks >= r.totalDays
      && DaysPerWeek * (r.totalWeeks - 1) < r.totalDays
  {
    ScheduleInvariant(rule, videos, wa);
  }

  /** Placing one valid video takes at most eight runs of the loop body. */
  lemma {:induction false} PlaceWithinEightPasses(rule: BudgetRule, wa: seq<int>, c: Cursor, v: Video)
    requires ValidWeek(wa) && c.day >= 0 && v.duration <= MaxDaily(wa)
    ensures 1 <= Passes(rule, wa, c, v) <= PassesLeft(rule, wa, c, v) + 1 <= DaysPerWeek + 1
    decreases PassesLeft(rule, wa, c, v)
  {
    var (next, placed) := Pass(rule, wa, c, v);
    if !placed {
      PassesLeftDecreases(rule, wa, c, v);
      PlaceWithinEightPasses(rule, wa, next, v);
    }
  }

  /* ---------- Which day each entry lands on ---------- */

  /** The weekday `j` days after day `d`. */
  function DayAfter(d: int, j: int): int {
    (d + j) % DaysPerWeek
  }

  /** Day `d` of a week that may just have run over: day 7 is day 0 again. */
  function Weekday(d: int): int {
    if d == DaysPerWeek then 0 else d
  }

  /** Termination measure of the search for a roomy day: 0 at the peak day. */
  function RoomyDistance(wa: seq<int>, d: nat): nat
    requires |wa| == DaysPerWeek && d <= DaysPerWeek
  {
    var t := Weekday(d);
    if t == ArgMax(wa) then 0 else Gap(t, ArgMax(wa))
  }

  /** A day without room for a valid video is not the peak day, so the search moves closer to it. */
  lemma RoomyDistanceDecreases(rule: BudgetRule, wa: seq<int>, d: nat, v: Video)
    requires ValidWeek(wa) && d <= DaysPerWeek && v.duration <= MaxDaily(wa)
    requires Budget(rule, wa, Weekday(d)) < v.duration
    ensures RoomyDistance(wa, Weekday(d) + 1) < RoomyDistance(wa, d)
  {
    PeakBudget(rule, wa);
  }

  /**
   The first of the days `d, d + 1, ...`, read around the week (day 7 is day 0 again),
   whose budget has room for `v`.
   */
  function FirstRoomyDay(rule: BudgetRule, wa: seq<int>, d: nat, v: Video): (r: nat)
    requires ValidWeek(wa) && d <= DaysPerWeek && v.duration <= MaxDaily(wa)
    ensures r < DaysPerWeek && v.duration <= Budget(rule, wa, r)
    decreases RoomyDistance(wa, d)
  {
    var t := Weekday(d);
    if v.duration <= Budget(rule, wa, t) then t
    else
      RoomyDistanceDecreases(rule, wa, d, v);
      FirstRoomyDay(rule, wa, t + 1, v)
  }

  /** One step of the search: stop at day `d` if it has room, or go on from the next day. */
  lemma FirstRoomyDayStep(rule: BudgetRule, wa: seq<int>, d: nat, v: Video)
    requires ValidWeek(wa) && d <= DaysPerWeek && v.duration <= MaxDaily(wa)
    ensures v.duration <= Budget(rule, wa, Weekday(d)) ==> FirstRoomyDay(rule, wa, d, v) == Weekday(d)
    ensures v.duration > Budget(rule, wa, Weekday(d)) ==>
      FirstRoomyDay(rule, wa, d, v) == FirstRoomyDay(rule, wa, Weekday(d) + 1, v)
  {
  }

  /** Every day the search passes over, going round the week from `d`, lacks room for `v`. */
  lemma {:induction false} FirstRoomyDayIsFirst(rule: BudgetRule, wa: seq<int>, d: nat, v: Video, j: nat)
    requires ValidWeek(wa) && d <= DaysPerWeek && v.duration <= MaxDaily(wa)
    requires j < (FirstRoomyDay(rule, wa, d, v) - d) % DaysPerWeek
    ensures Budget(rule, wa, DayAfter(d, j)) < v.duration
    decreases RoomyDistance(wa, d)
  {
    var t := Weekday(d);
    var r := FirstRoomyDay(rule, wa, d, v);
    ModShift(r, d);
    FirstRoomyDayStep(rule, wa, d, v);
    if v.duration <= Budget(rule, wa, t) {
      assert false;
    } else if j == 0 {
      assert DayAfter(d, 0) == t;
    } else {
      RoomyDistanceDecreases(rule, wa, d, v);
      ModStep(r, t);
      FirstRoomyDayIsFirst(rule, wa, t + 1, v, j - 1);
      DayStep(d, j);
    }
  }

  lemma ModShift(r: int, d: int)
    requires 0 <= d <= DaysPerWeek
    ensures (r - d) % DaysPerWeek == (r - Weekday(d)) % DaysPerWeek
  {
  }

  lemma ModStep(r: int, t: int)
    requires 0 <= r < DaysPerWeek && 0 <= t < DaysPerWeek && r != t
    ensures (r - (t + 1)) % DaysPerWeek == (r - t) % DaysPerWeek - 1
  {
  }

  lemma DayStep(d: int, j: int)
    requires 0 <= d <= DaysPerWeek
    ensures DayAfter(Weekday(d) + 1, j - 1) == DayAfter(d, j)
  {
  }

  /** One run of the loop body, as seen by `Place`: it accepts after the wrap check, or retries from the next day. */
  lemma {:induction false} PlaceTakes(rule: BudgetRule, wa: seq<int>, c: Cursor, v: Video)
    requires ValidWeek(wa) && c.day >= 0 && v.duration <= MaxDaily(wa)
    requires v.duration <= Wrap(wa, c).remaining
    ensures Place(rule, wa, c, v) == Accept(Wrap(wa, c), v)
  {
    assert Pass(rule, wa, c, v) == (Accept(Wrap(wa, c), v), true);
  }

  lemma {:induction false} PlaceSkips(rule: BudgetRule, wa: seq<int>, c: Cursor, v: Video)
    requires ValidWeek(wa) && c.day >= 0 && v.duration <= MaxDaily(wa)
    requires v.duration > Wrap(wa, c).remaining
    ensures Place(rule, wa, c, v) == Place(rule, wa, Advance(rule, wa, Wrap(wa, c)), v)
  {
    assert Pass(rule, wa, c, v) == (Advance(rule, wa, Wrap(wa, c)), false);
    PassesLeftDecreases(rule, wa, c, v);
  }

  /** A cursor at the start of day `day` (0 to 7): nothing placed on it yet, its whole budget left. */
  predicate Fresh(rule: BudgetRule, wa: seq<int>, n: Cursor)
    requires |wa| == DaysPerWeek
  {
    0 <= n.day <= DaysPerWeek && n.dayVideos == [] && n.remaining == Budget(rule, wa, n.day)
  }

  /** A fresh day 7 wraps to a fresh day 0; a fresh weekday is left alone. */
  lemma {:induction false} FreshWrap(rule: BudgetRule, wa: seq<int>, n: Cursor)
    requires ValidWeek(wa) && Fresh(rule, wa, n)
    ensures Wrap(wa, n) == Cursor(Weekday(n.day), Budget(rule, wa, Weekday(n.day)), [], n.emitted)
  {
    assert Budget(rule, wa, 0) == wa[0];
    assert Flush(n) == n.emitted;
  }

  /** From a fresh day the inner loop puts `v` alone on the first roomy day. */
  lemma {:induction false} FreshPlace(rule: BudgetRule, wa: seq<int>, n: Cursor, v: Video)
    requires ValidWeek(wa) && Fresh(rule, wa, n) && v.duration <= MaxDaily(wa)
    ensures var f := FirstRoomyDay(rule, wa, n.day, v);
      Place(rule, wa, n, v) == Cursor(f, Budget(rule, wa, f) - v.duration, [v], n.emitted)
  {
    FreshReaches(rule, wa, n, v);
    PlaceOnRoomyDay(rule, wa, FirstRoomyDay(rule, wa, n.day, v), n.emitted, v);
  }

  /** On a fresh weekday with room for it, `v` goes first on that day. */
  lemma {:induction false} PlaceOnRoomyDay(rule: BudgetRule, wa: seq<int>, f: int, emitted: seq<Entry>, v: Video)
    requires ValidWeek(wa) && 0 <= f < DaysPerWeek && v.duration <= Budget(rule, wa, f) && v.duration <= MaxDaily(wa)
    ensures Place(rule, wa, Cursor(f, Budget(rule, wa, f), [], emitted), v)
         == Cursor(f, Budget(rule, wa, f) - v.duration, [v], emitted)
  {
    var l := Cursor(f, Budget(rule, wa, f), [], emitted);
    PlaceHere(rule, wa, l, v);
    AcceptFirst(l, v);
  }

  /** The first video of a day is the whole of that day's list. */
  lemma {:induction false} AcceptFirst(c: Cursor, v: Video)
    requires c.dayVideos == []
    ensures Accept(c, v) == Cursor(c.day, c.remaining - v.duration, [v], c.emitted)
  {
    assert [] + [v] == [v];
  }

  /** Skipping days from a fresh day, the inner loop reaches the first roomy day, still fresh. */
  lemma {:induction false} FreshReaches(rule: BudgetRule, wa: seq<int>, n: Cursor, v: Video)
    requires ValidWeek(wa) && Fresh(rule, wa, n) && v.duration <= MaxDaily(wa)
    ensures var f := FirstRoomyDay(rule, wa, n.day, v);
      Place(rule, wa, n, v) == Place(rule, wa, Cursor(f, Budget(rule, wa, f), [], n.emitted), v)
    decreases RoomyDistance(wa, n.day)
  {
    if v.duration <= Budget(rule, wa, Weekday(n.day)) {
      FreshHasRoom(rule, wa, n, v);
    } else {
      FreshMisses(rule, wa, n, v);
      SearchMoves(rule, wa, n.day, v);
      FreshReaches(rule, wa, Advance(rule, wa, Wrap(wa, n)), v);
    }
  }

  /** A day without room for `v` passes the search on to the next day, closer to the peak. */
  lemma {:induction false} SearchMoves(rule: BudgetRule, wa: seq<int>, d: nat, v: Video)
    requires ValidWeek(wa) && d <= DaysPerWeek && v.duration <= MaxDaily(wa)
    requires v.duration > Budget(rule, wa, Weekday(d))
    ensures FirstRoomyDay(rule, wa, Weekday(d) + 1, v) == FirstRoomyDay(rule, wa, d, v)
    ensures RoomyDistance(wa, Weekday(d) + 1) < RoomyDistance(wa, d)
  {
    FirstRoomyDayStep(rule, wa, d, v);
    RoomyDistanceDecreases(rule, wa, d, v);
  }

  /** A fresh day with room for `v` is itself the first roomy day, once wrapped. */
  lemma {:induction false} FreshHasRoom(rule: BudgetRule, wa: seq<int>, n: Cursor, v: Video)
    requires ValidWeek(wa) && Fresh(rule, wa, n) && v.duration <= MaxDaily(wa)
    requires v.duration <= Budget(rule, wa, Weekday(n.day))
    ensures var f := FirstRoomyDay(rule, wa, n.day, v);
      Place(rule, wa, n, v) == Place(rule, wa, Cursor(f, Budget(rule, wa, f), [], n.emitted), v)
  {
    FirstRoomyDayStep(rule, wa, n.day, v);
    FreshWrap(rule, wa, n);
    PlaceWrapped(rule, wa, n, v);
  }

  /** The wrap check at the top of the loop body changes nothing about where a video lands. */
  lemma {:induction false} PlaceWrapped(rule: BudgetRule, wa: seq<int>, c: Cursor, v: Video)
    requires ValidWeek(wa) && c.day >= 0 && v.duration <= MaxDaily(wa)
    ensures Place(rule, wa, c, v) == Place(rule, wa, Wrap(wa, c), v)
  {
    var w := Wrap(wa, c);
    assert Wrap(wa, w) == w;
    if v.duration <= w.remaining {
      PlaceTakes(rule, wa, c, v);
      PlaceTakes(rule, wa, w, v);
    } else {
      PlaceSkips(rule, wa, c, v);
      PlaceSkips(rule, wa, w, v);
    }
  }


  /** A fresh day without room for `v` passes it on to the next fresh day. */
  lemma {:induction false} FreshMisses(rule: BudgetRule, wa: seq<int>, n: Cursor, v: Video)
    requires ValidWeek(wa) && Fresh(rule, wa, n) && v.duration <= MaxDaily(wa)
    requires v.duration > Budget(rule, wa, Weekday(n.day))
    ensures var m := Advance(rule, wa, Wrap(wa, n));
      && Place(rule, wa, n, v) == Place(rule, wa, m, v)
      && Fresh(rule, wa, m) && m.day == Weekday(n.day) + 1 && m.emitted == n.emitted
  {
    var w := Cursor(Weekday(n.day), Budget(rule, wa, Weekday(n.day)), [], n.emitted);
    FreshWrap(rule, wa, n);
    PlaceSkips(rule, wa, n, v);
    assert Flush(w) == n.emitted;
  }

  /**
   Where the inner loop puts `v` from a cursor on a weekday: on the current day when it
   fits the time left, and otherwise alone, as the first video of a fresh day, on the
   first later day with room for it.
   */
  lemma {:induction false} PlaceLands(rule: BudgetRule, wa: seq<int>, c: Cursor, v: Video)
    requires ValidWeek(wa) && 0 <= c.day < DaysPerWeek && v.duration <= MaxDaily(wa)
    ensures v.duration <= c.remaining ==> Place(rule, wa, c, v) == Accept(c, v)
    ensures v.duration > c.remaining ==>
      var f := FirstRoomyDay(rule, wa, c.day + 1, v);
      Place(rule, wa, c, v) == Cursor(f, Budget(rule, wa, f) - v.duration, [v], Flush(c))
  {
    if v.duration <= c.remaining {
      PlaceHere(rule, wa, c, v);
    } else {
      PlaceOnFreshDay(rule, wa, c, v);
    }
  }

  /** A video too long for the time left opens the first later day with room for it. */
  lemma {:induction false} PlaceOnFreshDay(rule: BudgetRule, wa: seq<int>, c: Cursor, v: Video)
    requires ValidWeek(wa) && 0 <= c.day < DaysPerWeek && v.duration <= MaxDaily(wa)
    requires v.duration > c.remaining
    ensures var f := FirstRoomyDay(rule, wa, c.day + 1, v);
      Place(rule, wa, c, v) == Cursor(f, Budget(rule, wa, f) - v.duration, [v], Flush(c))
  {
    var n := Advance(rule, wa, c);
    AdvanceIsFresh(rule, wa, c);
    PlaceMovesOn(rule, wa, c, v);
    FreshPlace(rule, wa, n, v);
  }

  /** Leaving a weekday opens the next day fresh, with today's entry pushed. */
  lemma {:induction false} AdvanceIsFresh(rule: BudgetRule, wa: seq<int>, c: Cursor)
    requires ValidWeek(wa) && 0 <= c.day < DaysPerWeek
    ensures var n := Advance(rule, wa, c);
      Fresh(rule, wa, n) && n.day == c.day + 1 && n.emitted == Flush(c)
  {
  }

  /** A weekday without room for `v` hands it to the next day. */
  lemma {:induction false} PlaceMovesOn(rule: BudgetRule, wa: seq<int>, c: Cursor, v: Video)
    requires ValidWeek(wa) && 0 <= c.day < DaysPerWeek && v.duration <= MaxDaily(wa)
    requires v.duration > c.remaining
    ensures Place(rule, wa, c, v) == Place(rule, wa, Advance(rule, wa, c), v)
  {
    assert Wrap(wa, c) == c;
    PlaceSkips(rule, wa, c, v);
  }

  /** Entry `e` starts with a valid video and sits on the first day from `d` with room for it. */
  predicate LandsFrom(rule: BudgetRule, wa: seq<int>, d: int, e: Entry)
    requires ValidWeek(wa)
  {
    && 0 <= d <= DaysPerWeek && |e.videos| > 0 && e.videos[0].duration <= MaxDaily(wa)
    && e.day == FirstRoomyDay(rule, wa, d, e.videos[0])
  }

  /**
   Entry days as the loop picks them: the first entry goes on the first day from day 0
   with room for its first video, and each later entry on the first day after its
   predecessor's with room for its first video.
   */
  predicate Landed(rule: BudgetRule, wa: seq<int>, es: seq<Entry>)
    requires ValidWeek(wa)
  {
    && (|es| > 0 ==> LandsFrom(rule, wa, 0, es[0]))
    && (forall i :: 0 <= i < |es| - 1 ==> LandsFrom(rule, wa, es[i].day + 1, es[i + 1]))
  }

  /** Only the day and the first video of the last entry matter to `Landed`. */
  lemma {:induction false} LandedSameHead(rule: BudgetRule, wa: seq<int>, es: seq<Entry>, e: Entry, e': Entry)
    requires ValidWeek(wa) && Landed(rule, wa, es + [e]) && |e.videos| > 0
    requires e'.day == e.day && |e'.videos| > 0 && e'.videos[0] == e.videos[0]
    ensures Landed(rule, wa, es + [e'])
  {
    var a, b := es + [e], es + [e'];
    assert forall i :: 0 <= i < |es| ==> b[i] == a[i];
    assert forall d :: LandsFrom(rule, wa, d, e) ==> LandsFrom(rule, wa, d, e');
    assert b[|es|] == e' && a[|es|] == e;
  }

  /** An entry on the first roomy day after the last entry's day extends `Landed`. */
  lemma {:induction false} LandedExtend(rule: BudgetRule, wa: seq<int>, es: seq<Entry>, e: Entry)
    requires ValidWeek(wa) && Landed(rule, wa, es) && es != [] && 0 <= es[|es| - 1].day < DaysPerWeek
    requires LandsFrom(rule, wa, es[|es| - 1].day + 1, e)
    ensures Landed(rule, wa, es + [e])
  {
    var b := es + [e];
    forall i | 0 <= i < |b| - 1
      ensures LandsFrom(rule, wa, b[i].day + 1, b[i + 1])
    {
      if i < |es| - 1 {
        assert b[i] == es[i] && b[i + 1] == es[i + 1];
      } else {
        assert b[i] == es[|es| - 1] && b[i + 1] == e;
      }
    }
    assert b[0] == es[0];
  }

  /** One placement keeps the entries, flushed, landed as the loop picks days. */
  lemma {:induction false} PlaceStepLands(rule: BudgetRule, wa: seq<int>, c: Cursor, v: Video)
    requires ValidWeek(wa) && 0 <= c.day < DaysPerWeek && |c.dayVideos| > 0 && v.duration <= MaxDaily(wa)
    requires Landed(rule, wa, Flush(c))
    ensures Landed(rule, wa, Flush(Place(rule, wa, c, v)))
  {
    if v.duration <= c.remaining {
      StayLands(rule, wa, c, v);
    } else {
      MoveLands(rule, wa, c, v);
    }
  }

  /** A video that fits the time left joins the current day, whose entry keeps its landing. */
  lemma {:induction false} StayLands(rule: BudgetRule, wa: seq<int>, c: Cursor, v: Video)
    requires ValidWeek(wa) && 0 <= c.day < DaysPerWeek && |c.dayVideos| > 0 && v.duration <= MaxDaily(wa)
    requires Landed(rule, wa, Flush(c)) && v.duration <= c.remaining
    ensures Landed(rule, wa, Flush(Place(rule, wa, c, v)))
  {
    PlaceHere(rule, wa, c, v);
    AcceptLands(rule, wa, c, v);
  }

  /** A video that does not fit opens a new entry on the first roomy day after the current one. */
  lemma {:induction false} MoveLands(rule: BudgetRule, wa: seq<int>, c: Cursor, v: Video)
    requires ValidWeek(wa) && 0 <= c.day < DaysPerWeek && |c.dayVideos| > 0 && v.duration <= MaxDaily(wa)
    requires Landed(rule, wa, Flush(c)) && v.duration > c.remaining
    ensures Landed(rule, wa, Flush(Place(rule, wa, c, v)))
  {
    PlaceOnFreshDay(rule, wa, c, v);
    LandedFresh(rule, wa, c, Place(rule, wa, c, v), v);
  }

  /** A fresh day opened on the first roomy day after the current one keeps the schedule landed. */
  lemma {:induction false} LandedFresh(rule: BudgetRule, wa: seq<int>, c: Cursor, p: Cursor, v: Video)
    requires ValidWeek(wa) && 0 <= c.day < DaysPerWeek && |c.dayVideos| > 0 && v.duration <= MaxDaily(wa)
    requires Landed(rule, wa, Flush(c))
    requires p.day == FirstRoomyDay(rule, wa, c.day + 1, v) && p.dayVideos == [v] && p.emitted == Flush(c)
    ensures Landed(rule, wa, Flush(p))
  {
    assert Flush(c)[|Flush(c)| - 1].day == c.day;
    assert Flush(p) == Flush(c) + [Entry(p.day, [v])];
    LandedExtend(rule, wa, Flush(c), Entry(p.day, [v]));
  }

  lemma {:induction false} AcceptLands(rule: BudgetRule, wa: seq<int>, c: Cursor, v: Video)
    requires ValidWeek(wa) && |c.dayVideos| > 0 && Landed(rule, wa, Flush(c))
    ensures Landed(rule, wa, Flush(Accept(c, v)))
  {
    var e, e' := Entry(c.day, c.dayVideos), Entry(c.day, c.dayVideos + [v]);
    assert Flush(c) == c.emitted + [e];
    assert Flush(Accept(c, v)) == c.emitted + [e'];
    LandedSameHead(rule, wa, c.emitted, e, e');
  }

  lemma FlushFresh(c: Cursor, f: int, left: int, v: Video)
    ensures Flush(Cursor(f, left, [v], Flush(c))) == Flush(c) + [Entry(f, [v])]
  {
  }

  lemma {:induction false} PlaceAllLands(rule: BudgetRule, wa: seq<int>, c: Cursor, vs: seq<Video>)
    requires ValidWeek(wa) && 0 <= c.day < DaysPerWeek && |c.dayVideos| > 0
    requires forall i :: 0 <= i < |vs| ==> vs[i].duration <= MaxDaily(wa)
    requires Landed(rule, wa, Flush(c))
    ensures Landed(rule, wa, Flush(PlaceAll(rule, wa, c, vs)))
    decreases |vs|
  {
    if vs != [] {
      var n := Place(rule, wa, c, vs[0]);
      PlaceStepLands(rule, wa, c, vs[0]);
      PlaceAllLands(rule, wa, n, vs[1..]);
      assert PlaceAll(rule, wa, c, vs) == PlaceAll(rule, wa, n, vs[1..]);
    }
  }

  /** The first video goes alone on the first day from day 0 with room for it. */
  lemma {:induction false} FirstPlaceLands(rule: BudgetRule, wa: seq<int>, v: Video)
    requires ValidWeek(wa) && v.duration <= MaxDaily(wa)
    ensures var c := Place(rule, wa, Start(wa), v);
      0 <= c.day < DaysPerWeek && |c.dayVideos| > 0 && Landed(rule, wa, Flush(c))
  {
    assert Start(wa) == Cursor(0, Budget(rule, wa, 0), [], []);
    FreshPlace(rule, wa, Start(wa), v);
    var f := FirstRoomyDay(rule, wa, 0, v);
    FlushFresh(Start(wa), f, Budget(rule, wa, f) - v.duration, v);
    assert LandsFrom(rule, wa, 0, Entry(f, [v]));
  }

  /** Every entry of the schedule sits on the day the loop picks for it. */
  lemma {:induction false} ScheduleLands(rule: BudgetRule, videos: seq<Video>, wa: seq<int>)
    requires ValidWeek(wa)
    ensures Landed(rule, wa, ScheduleWith(rule, videos, wa).schedule)
  {
    var valid := ValidVideos(videos, MaxDaily(wa));
    assert ScheduleWith(rule, videos, wa).schedule == Flush(PlaceAll(rule, wa, Start(wa), valid));
    if valid != [] {
      FirstPlaceLands(rule, wa, valid[0]);
      var c1 := Place(rule, wa, Start(wa), valid[0]);
      PlaceAllLands(rule, wa, c1, valid[1..]);
      assert PlaceAll(rule, wa, Start(wa), valid) == PlaceAll(rule, wa, c1, valid[1..]);
    }
  }

  /* ---------- The zero-budget fallback ---------- */

  lemma PeakOfWeek(wa: seq<int>, k: nat)
    requires k < |wa| && forall i :: 0 <= i < |wa| ==> wa[i] <= wa[k]
    ensures MaxDaily(wa) == wa[k]
  {
  }

  lemma {:induction false} AllValid(videos: seq<Video>, maxDaily: int)
    requires forall i :: 0 <= i < |videos| ==> videos[i].duration <= maxDaily
    ensures ValidVideos(videos, maxDaily) == videos
  {
    if videos != [] {
      var init, last := videos[..|videos| - 1], videos[|videos| - 1];
      AllValid(init, maxDaily);
      LastSplit(videos);
    }
  }

  /** Under the corrected rule no entry exceeds the availability entered for its weekday. */
  lemma IntendedRespectsAvailability(videos: seq<Video>, wa: seq<int>)
    requires ValidWeek(wa)
    ensures forall e :: e in ScheduleWith(ZeroMeansRest, videos, wa).schedule ==>
      0 <= e.day < DaysPerWeek && Total(e.videos) <= wa[e.day]
  {
    ScheduleInvariant(ZeroMeansRest, videos, wa);
  }

  /** A video that does not fit today but fits the next day is placed there. */
  lemma PlaceNextDay(rule: BudgetRule, wa: seq<int>, c: Cursor, v: Video)
    requires ValidWeek(wa) && 0 <= c.day < DaysPerWeek - 1 && v.duration <= MaxDaily(wa)
    requires c.remaining < v.duration <= Budget(rule, wa, c.day + 1)
    ensures Place(rule, wa, c, v) == Accept(Advance(rule, wa, c), v)
  {
    var n := Advance(rule, wa, c);
    assert Wrap(wa, c) == c && Wrap(wa, n) == n;
    assert Pass(rule, wa, c, v) == (n, false);
    assert Pass(rule, wa, n, v) == (Accept(n, v), true);
    PassesLeftDecreases(rule, wa, c, v);
    assert Place(rule, wa, c, v) == Place(rule, wa, n, v);
  }

  /** The three placements of the fallback example. */
  lemma FallbackTrace(wa: seq<int>, a: Video, b: Video, c: Video)
    requires wa == [60, 0, 0, 0, 0, 0, 0]
    requires a.duration == 30 && b.duration == 45 && c.duration == 20
    ensures ValidWeek(wa) && MaxDaily(wa) == 60
    ensures PlaceAll(ZeroFallsBack, wa, Start(wa), [a, b, c])
         == Cursor(2, 40, [c], [Entry(0, [a]), Entry(1, [b])])
  {
    FallbackWeek(wa);
    TraceAll(wa, a, b, c);
  }

  /** The week of the fallback example: 60 minutes on day 0, read again on days 1 and 2. */
  lemma FallbackWeek(wa: seq<int>)
    requires wa == [60, 0, 0, 0, 0, 0, 0]
    ensures ValidWeek(wa) && wa[0] == 60 && MaxDaily(wa) == 60
    ensures Budget(ZeroFallsBack, wa, 1) == 60 && Budget(ZeroFallsBack, wa, 2) == 60
  {
    PeakOfWeek(wa, 0);
  }

  /** The three placements of the fallback example, on any week with the same budgets on days 0 to 2. */
  lemma TraceAll(wa: seq<int>, a: Video, b: Video, c: Video)
    requires ValidWeek(wa) && wa[0] == 60 && MaxDaily(wa) == 60
    requires Budget(ZeroFallsBack, wa, 1) == 60 && Budget(ZeroFallsBack, wa, 2) == 60
    requires a.duration == 30 && b.duration == 45 && c.duration == 20
    ensures PlaceAll(ZeroFallsBack, wa, Start(wa), [a, b, c])
         == Cursor(2, 40, [c], [Entry(0, [a]), Entry(1, [b])])
  {
    TraceFirst(wa, a);
    TraceRest(wa, a, b, c);
    assert [a, b, c][0] == a && [a, b, c][1..] == [b, c];
  }

  /** The second and third videos of the fallback example go on days 1 and 2. */
  lemma TraceRest(wa: seq<int>, a: Video, b: Video, c: Video)
    requires ValidWeek(wa) && MaxDaily(wa) == 60
    requires Budget(ZeroFallsBack, wa, 1) == 60 && Budget(ZeroFallsBack, wa, 2) == 60
    requires b.duration == 45 && c.duration == 20
    ensures PlaceAll(ZeroFallsBack, wa, Cursor(0, 30, [a], []), [b, c])
         == Cursor(2, 40, [c], [Entry(0, [a]), Entry(1, [b])])
  {
    var c1 := Cursor(0, 30, [a], []);
    var c2 := Cursor(1, 15, [b], [Entry(0, [a])]);
    var c3 := Cursor(2, 40, [c], [Entry(0, [a]), Entry(1, [b])]);
    TraceSecond(wa, a, b);
    TraceLast(wa, a, b, c);
    PlaceAllStep(ZeroFallsBack, wa, c1, b, [c], c2, c3);
    assert [b] + [c] == [b, c];
  }

  lemma TraceSecond(wa: seq<int>, a: Video, b: Video)
    requires ValidWeek(wa) && MaxDaily(wa) == 60 && Budget(ZeroFallsBack, wa, 1) == 60
    requires b.duration == 45
    ensures Place(ZeroFallsBack, wa, Cursor(0, 30, [a], []), b) == Cursor(1, 15, [b], [Entry(0, [a])])
  {
    var c1 := Cursor(0, 30, [a], []);
    TraceNext(wa, c1, b, 45, Entry(0, [a]));
    assert c1.emitted + [Entry(0, [a])] == [Entry(0, [a])];
  }

  lemma TraceLast(wa: seq<int>, a: Video, b: Video, c: Video)
    requires ValidWeek(wa) && MaxDaily(wa) == 60 && Budget(ZeroFallsBack, wa, 2) == 60
    requires b.duration == 45 && c.duration == 20
    ensures PlaceAll(ZeroFallsBack, wa, Cursor(1, 15, [b], [Entry(0, [a])]), [c])
         == Cursor(2, 40, [c], [Entry(0, [a]), Entry(1, [b])])
  {
    var c2 := Cursor(1, 15, [b], [Entry(0, [a])]);
    var c3 := Cursor(2, 40, [c], [Entry(0, [a]), Entry(1, [b])]);
    TraceNext(wa, c2, c, 20, Entry(1, [b]));
    assert c2.emitted + [Entry(1, [b])] == c3.emitted;
    PlaceAllStep(ZeroFallsBack, wa, c2, c, [], c3, c3);
    assert [c] + [] == [c];
  }

  /** The first video of the fallback example goes on day 0. */
  lemma TraceFirst(wa: seq<int>, a: Video)
    requires ValidWeek(wa) && wa[0] == 60 && MaxDaily(wa) == 60 && a.duration == 30
    ensures Place(ZeroFallsBack, wa, Start(wa), a) == Cursor(0, 30, [a], [])
  {
    PlaceHere(ZeroFallsBack, wa, Start(wa), a);
  }

  /** In the fallback example a video that misses today goes on the next day, with 60 minutes. */
  lemma TraceNext(wa: seq<int>, c: Cursor, v: Video, m: int, e: Entry)
    requires ValidWeek(wa) && MaxDaily(wa) == 60
    requires 0 <= c.day < DaysPerWeek - 1 && c.remaining < v.duration == m <= 60
    requires Budget(ZeroFallsBack, wa, c.day + 1) == 60
    requires |c.dayVideos| > 0 && e == Entry(c.day, c.dayVideos)
    ensures Place(ZeroFallsBack, wa, c, v) == Cursor(c.day + 1, 60 - m, [v], c.emitted + [e])
  {
    PlaceNextDay(ZeroFallsBack, wa, c, v);
  }

  /** A video that fits what is left of a weekday is placed there at once. */
  lemma PlaceHere(rule: BudgetRule, wa: seq<int>, c: Cursor, v: Video)
    requires ValidWeek(wa) && 0 <= c.day < DaysPerWeek && v.duration <= MaxDaily(wa)
    requires v.duration <= c.remaining
    ensures Place(rule, wa, c, v) == Accept(c, v)
  {
    assert Pass(rule, wa, c, v) == (Accept(c, v), true);
  }

  /** The outer loop places `v`, reaching `next`, and then the rest of the videos from there. */
  lemma PlaceAllStep(rule: BudgetRule, wa: seq<int>, c: Cursor, v: Video, vs: seq<Video>, next: Cursor, last: Cursor)
    requires ValidWeek(wa) && c.day >= 0 && v.duration <= MaxDaily(wa)
    requires forall i :: 0 <= i < |vs| ==> vs[i].duration <= MaxDaily(wa)
    requires Place(rule, wa, c, v) == next
    requires PlaceAll(rule, wa, next, vs) == last
    ensures PlaceAll(rule, wa, c, [v] + vs) == last
  {
    assert ([v] + vs)[0] == v && ([v] + vs)[1..] == vs;
  }

  /**
   As written, a day given 0 minutes still receives videos: with 60 minutes on day 0
   and none elsewhere, videos of 30, 45 and 20 minutes land on days 0, 1 and 2.
   */
  lemma ZeroDayGetsVideos(wa: seq<int>, a: Video, b: Video, c: Video)
    requires wa == [60, 0, 0, 0, 0, 0, 0]
    requires a.duration == 30 && b.duration == 45 && c.duration == 20
    ensures CalculateSchedule([a, b, c], wa).schedule == [Entry(0, [a]), Entry(1, [b]), Entry(2, [c])]
    ensures wa[1] == 0 && Total(CalculateSchedule([a, b, c], wa).schedule[1].videos) == 45
  {
    assert ValidWeek(wa) && wa[1] == 0;
    var r := CalculateSchedule([a, b, c], wa);
    ZeroDaySchedule(wa, a, b, c);
    SecondDayTotal(r.schedule, a, b, c);
  }

  lemma SecondDayTotal(s: seq<Entry>, a: Video, b: Video, c: Video)
    requires s == [Entry(0, [a]), Entry(1, [b]), Entry(2, [c])]
    ensures |s| == 3 && Total(s[1].videos) == b.duration
  {
    assert s[1].videos == [b];
    assert [b][..0] == [];
  }

  lemma ZeroDaySchedule(wa: seq<int>, a: Video, b: Video, c: Video)
    requires wa == [60, 0, 0, 0, 0, 0, 0]
    requires a.duration == 30 && b.duration == 45 && c.duration == 20
    ensures CalculateSchedule([a, b, c], wa).schedule == [Entry(0, [a]), Entry(1, [b]), Entry(2, [c])]
  {
    FallbackWeek(wa);
    ZeroDayOnWeek(wa, a, b, c);
  }

  /** The fallback example's schedule, on any week with its budgets on days 0 to 2. */
  lemma {:induction false} ZeroDayOnWeek(wa: seq<int>, a: Video, b: Video, c: Video)
    requires ValidWeek(wa) && wa[0] == 60 && MaxDaily(wa) == 60
    requires Budget(ZeroFallsBack, wa, 1) == 60 && Budget(ZeroFallsBack, wa, 2) == 60
    requires a.duration == 30 && b.duration == 45 && c.duration == 20
    ensures CalculateSchedule([a, b, c], wa).schedule == [Entry(0, [a]), Entry(1, [b]), Entry(2, [c])]
  {
    var last := Cursor(2, 40, [c], [Entry(0, [a]), Entry(1, [b])]);
    TraceAll(wa, a, b, c);
    ThreeValid(a, b, c);
    ScheduleFromTrace([a, b, c], wa, last);
    ThreeDays(a, b, c);
  }

  lemma {:induction false} ThreeValid(a: Video, b: Video, c: Video)
    requires a.duration <= 60 && b.duration <= 60 && c.duration <= 60
    ensures ValidVideos([a, b, c], 60) == [a, b, c]
  {
    AllValid([a, b, c], 60);
  }

  lemma {:induction false} ThreeDays(a: Video, b: Video, c: Video)
    ensures Flush(Cursor(2, 40, [c], [Entry(0, [a]), Entry(1, [b])])) == [Entry(0, [a]), Entry(1, [b]), Entry(2, [c])]
  {
    assert [Entry(0, [a]), Entry(1, [b])] + [Entry(2, [c])] == [Entry(0, [a]), Entry(1, [b]), Entry(2, [c])];
  }

  /** When every video is valid, the schedule is the final cursor of the outer loop, flushed. */
  lemma {:induction false} ScheduleFromTrace(videos: seq<Video>, wa: seq<int>, last: Cursor)
    requires ValidWeek(wa) && ValidVideos(videos, MaxDaily(wa)) == videos
    requires PlaceAll(ZeroFallsBack, wa, Start(wa), ValidVideos(videos, MaxDaily(wa))) == last
    ensures CalculateSchedule(videos, wa).schedule == Flush(last)
  {
    assert ScheduleWith(ZeroFallsBack, videos, wa).schedule == Flush(last);
  }

  /* ---------- A negative daily entry ---------- */

  /** Up to `n` runs of the loop body, stopping at the run that places `v`; the flag says whether one did. */
  function Iterate(rule: BudgetRule, wa: seq<int>, c: Cursor, v: Video, n: nat): (r: (Cursor, bool))
    requires |wa| == DaysPerWeek
    ensures n == 0 ==> r == (c, false)
    ensures r.1 ==> n > 0
    decreases n
  {
    if n == 0 then (c, false)
    else
      var (next, placed) := Pass(rule, wa, c, v);
      if placed then (next, true) else Iterate(rule, wa, next, v, n - 1)
  }

  /** On a valid week, the run `Passes` counts is the one that places `v`, at `Place`'s cursor. */
  lemma {:induction false} IterateAgrees(rule: BudgetRule, wa: seq<int>, c: Cursor, v: Video, n: nat)
    requires ValidWeek(wa) && c.day >= 0 && v.duration <= MaxDaily(wa)
    ensures Passes(rule, wa, c, v) <= n ==> Iterate(rule, wa, c, v, n) == (Place(rule, wa, c, v), true)
    ensures n < Passes(rule, wa, c, v) ==> !Iterate(rule, wa, c, v, n).1
    decreases PassesLeft(rule, wa, c, v)
  {
    var (next, placed) := Pass(rule, wa, c, v);
    if n == 0 {
    } else if placed {
      PlaceTakes(rule, wa, c, v);
    } else {
      PassesLeftDecreases(rule, wa, c, v);
      PlaceSkips(rule, wa, c, v);
      IterateAgrees(rule, wa, next, v, n - 1);
    }
  }

  /** Eight runs of the loop body always place a valid video where `Place` puts it. */
  lemma EightRunsPlace(rule: BudgetRule, wa: seq<int>, c: Cursor, v: Video)
    requires ValidWeek(wa) && c.day >= 0 && v.duration <= MaxDaily(wa)
    ensures Iterate(rule, wa, c, v, DaysPerWeek + 1) == (Place(rule, wa, c, v), true)
  {
    PlaceWithinEightPasses(rule, wa, c, v);
    IterateAgrees(rule, wa, c, v, DaysPerWeek + 1);
  }

  /** A week whose day-0 entry is negative and whose other entries are 0 or that same value. */
  predicate NegativeWeek(wa: seq<int>) {
    && |wa| == DaysPerWeek && wa[0] < 0
    && forall i :: 0 <= i < DaysPerWeek ==> wa[i] == 0 || wa[i] == wa[0]
  }

  /** Nothing placed yet, and the time left is the negative day-0 entry. */
  predicate Stuck(wa: seq<int>, c: Cursor)
    requires |wa| == DaysPerWeek
  {
    0 <= c.day <= DaysPerWeek && c.remaining == wa[0] && c.dayVideos == [] && c.emitted == []
  }

  /** As written, a run of the loop body on such a week places nothing and stays stuck. */
  lemma StuckPass(wa: seq<int>, c: Cursor, v: Video)
    requires NegativeWeek(wa) && Stuck(wa, c) && v.duration > wa[0]
    ensures !Pass(ZeroFallsBack, wa, c, v).1 && Stuck(wa, Pass(ZeroFallsBack, wa, c, v).0)
  {
    var w := Wrap(wa, c);
    assert w.remaining == wa[0] && w.dayVideos == [] && w.emitted == [] && 0 <= w.day < DaysPerWeek;
    var n := Advance(ZeroFallsBack, wa, w);
    assert Pass(ZeroFallsBack, wa, c, v) == (n, false);
    assert n.emitted == Flush(w) == [];
    assert n.remaining == Budget(ZeroFallsBack, wa, w.day + 1) == wa[0];
  }

  /** However many times the loop body runs, it never places a video longer than the negative entry. */
  lemma {:induction false} NegativeWeekSpins(wa: seq<int>, c: Cursor, v: Video, n: nat)
    requires NegativeWeek(wa) && Stuck(wa, c) && v.duration > wa[0]
    ensures !Iterate(ZeroFallsBack, wa, c, v, n).1
    decreases n
  {
    if n > 0 {
      StuckPass(wa, c, v);
      NegativeWeekSpins(wa, Pass(ZeroFallsBack, wa, c, v).0, v, n - 1);
    }
  }

  /**
   As written, `[-5, 0, 0, 0, 0, 0, 0]` and a 0-minute video hang the inner loop:
   the video passes the filter, since the largest entry is 0, but no number of runs
   of the loop body places it.
   */
  lemma NegativeEntryHangs(wa: seq<int>, v: Video, n: nat)
    requires wa == [-5, 0, 0, 0, 0, 0, 0] && v.duration == 0
    ensures v.duration <= MaxDaily(wa)
    ensures !Iterate(ZeroFallsBack, wa, Start(wa), v, n).1
  {
    assert NegativeWeek(wa);
    PeakOfWeek(wa, 1);
    NegativeWeekSpins(wa, Start(wa), v, n);
  }

  /** The week with every negative entry read as 0. */
  function Clamp(wa: seq<int>): (r: seq<int>)
    requires |wa| == DaysPerWeek
    ensures ValidWeek(r)
    ensures forall i :: 0 <= i < DaysPerWeek ==> r[i] == if wa[i] < 0 then 0 else wa[i]
  {
    seq(DaysPerWeek, i requires 0 <= i < DaysPerWeek => if wa[i] < 0 then 0 else wa[i])
  }

  /**
   `calculateSchedule` for any seven entries the form can produce: a negative entry
   counts as no time. The loop then always ends, and the schedule keeps every
   guarantee of `CalculateSchedule` for the clamped week.
   */
  function ScheduleAnyWeek(videos: seq<Video>, wa: seq<int>): (r: ScheduleResult)
    requires |wa| == DaysPerWeek
    ensures Flatten(r.schedule) == ValidVideos(videos, MaxDaily(Clamp(wa)))
    ensures forall i :: 0 <= i < |r.schedule| ==> Fitting(ZeroFallsBack, Clamp(wa), r.schedule[i])
    ensures NextFit(ZeroFallsBack, Clamp(wa), r.schedule)
    ensures r.unwatchableVideos + |Flatten(r.schedule)| == |videos|
  {
    CalculateSchedule(videos, Clamp(wa))
  }

  /** On a week with no negative entry the clamped schedule is the schedule as written. */
  lemma ClampedAgrees(videos: seq<Video>, wa: seq<int>)
    requires ValidWeek(wa)
    ensures ScheduleAnyWeek(videos, wa) == CalculateSchedule(videos, wa)
  {
    assert Clamp(wa) == wa;
  }
}

=== FILE: seqs.dfy ===
/** Facts about sequences that the other modules share. */
module Seqs {

  /** A non-empty sequence is its prefix followed by its last element, as a list and as a multiset. */
  lemma LastSplit<T>(s: seq<T>)
    requires s != []
    ensures s[..|s| - 1] + [s[|s| - 1]] == s
    ensures multiset(s) == multiset(s[..|s| - 1]) + multiset{s[|s| - 1]}
  {
    assert s == s[..|s| - 1] + [s[|s| - 1]];
  }
}

=== FILE: videos.dfy ===
/** The video record that the search endpoint hands to the browser code. */
module Videos {

  /** One search result; `duration` is in whole minutes, as produced by `parseDuration`. */
  datatype Video = Video(id: string, title: string, description: string, thumbnail: string, duration: int)
}
